=== FILE: README.md ===
# signal-spiral, modelled in Dafny

`signal-spiral` draws a recurring time series as a spiral. `spiral.py` makes a 2D polar plot: one turn per seasonal cycle, with the radius showing the value. `spiral3d.py` makes a 3D helix: one turn per year, with height showing time.

Under the pandas and matplotlib calls is a small pipeline:

1. Bucket the rows by calendar period and reduce each bucket by sum, mean, count or last. Drop NaN buckets.
2. Optionally transform the series: index to 100, year-over-year change, z-score or rolling mean.
3. Map every bucket to an angle and a radius. In 3D, also map it to a height.

This project models that pipeline over exact reals and proves its properties.

| file | module | models |
|---|---|---|
| `common.dfy` | `Common` | `Option` (NaN is `None`) and `Result` (a run that stops) |
| `stats.dfy` | `Stats` | sum, mean, population variance, NaN-skipping min and max, and the min–max position shared by both radius formulas |
| `calendar.dfy` | `Calendar` | `seasonal_periods`, the calendar field and angle of `angle_and_labels`, and the month and quarter bin keys |
| `transforms.dfy` | `Transforms` | `apply_transform` and its five transforms |
| `aggregation.dfy` | `Aggregation` | resampling into consecutive bins, the sum/mean/last reductions, and `dropna` |
| `spiral.dfy` | `Spiral` | steps 2–4 of `main` in `spiral.py`: count mode, the value-column check, resampling, transform, angles and radius |
| `helix.dfy` | `Helix` | `monthly_series`, `to_helix_coords` without the cos/sin projection, and the segments and colour values of `line3d_with_colormap` |

## Conventions

- **Angles** are fractions of a turn, `(k - 1) / P`. The source multiplies them by 2π.
- **NaN** is `None`. A zero base in year-over-year, which gives inf or NaN in the source, is also `None`; "## Left out" says what that changes for the radius.
- **Empty series:** `np.nanmin` and `min` raise on an empty array, so the radius and helix functions return `None` there.
- **Timestamps** are reduced to the calendar fields the pipeline reads (`Calendar.Date`).
  - Month and quarter bins are numbered from the year and month.
  - The ISO week, the day of year, the `W-MON` weekly bin number and the day number are inputs.
- **Standard deviation:** `std(ddof=0)` takes a square root. The model receives the standard deviation `sd` as a parameter and requires `sd >= 0` and `sd² = population variance` (`Stats.IsStdDev`).
- **Token strings:** `--agg` and `--transform` stay strings, so that the source's `else` branches are modelled as written.

## Behaviour worth knowing

- **Empty bins:** `resample().sum()` fills an empty bin with 0, and `dropna` keeps it. Only `mean()` and `last()` leave NaN bins, which are dropped. `Aggregation.AggregateKeys` states exactly which bins survive.
- **Count mode:** `--agg=count` with a value column sums that column (`Spiral.CountWithValueColumnIsSum`). Rows are counted only when there is no value column (`Spiral.CountModeCounts`).

## Model

| member | source | states |
|---|---|---|
| Calendar.SeasonalPeriods | spiral.py:19-20 | the cycle length is 12 for months, 52 for weeks, 365 for days and 4 for quarters |
| Calendar.Clip | spiral.py:28-32 | the clipped field lies in `[lo, hi]`, equals the input inside the range, and equals the nearer bound outside it |
| Calendar.QuarterOf | spiral.py:36 | the quarter q is in 1..4 and holds the month: `3(q-1) < month <= 3q` |
| Calendar.CalendarIndex | spiral.py:23-36 | the calendar field k is the month, the ISO week clipped to 1..52, the day of year clipped to 1..365, or the quarter, and lies in `1..P` |
| Calendar.PeriodIndex | spiral.py:39 | the period index `k - 1` lies in `[0, P)` |
| Calendar.Turn | spiral.py:39 | the angle lies in `[0, 1)` of a turn, and angle times P gives back the period index |
| Calendar.Angle | spiral.py:39 | a date's angle lies in `[0, 1)` of a turn, and the angle times P is the date's period index `k - 1` |
| Calendar.AngleOfField | spiral.py:22-39 | two dates with the same calendar field get the same angle, and the angle lies in `[0, 1)` |
| Calendar.SameMonthSameAngle | spiral.py:24-39 | dates in the same month get the same monthly and quarterly angle, whatever the year |
| Calendar.MonthKey | spiral3d.py:24-27 | an `MS` bin number holds the year as its quotient by 12 and `month - 1` as its remainder |
| Calendar.QuarterKey | spiral.py:76-77 | a `QS` bin number holds the year as its quotient by 4 and `quarter - 1` as its remainder |
| Calendar.BucketKey | spiral.py:76-77 | a date's month or quarter bin number gives the date's year and, modulo P, its period index; weekly and daily bins are the supplied bin numbers |
| Calendar.MonthKeyDecode | spiral.py:76-77 | a month bin key decodes back to its year and month |
| Calendar.MonthKeyEncode | spiral3d.py:24-27 | every integer key is the key of the month it decodes to |
| Calendar.MonthKeyOrder | spiral3d.py:24-27 | month keys order months by year, then by month (both directions) |
| Calendar.QuarterKeyDecode | spiral.py:76-77 | a quarter bin key gives back its quarter as the position in the cycle, and its year |
| Calendar.BucketAngle | spiral.py:39 | the angle of a month or quarter bin lies in `[0, 1)` |
| Calendar.BucketAngleOfDate | spiral.py:76-92 | a bin's angle equals the angle of every date in the bin |
| Calendar.BucketAngleCycles | spiral.py:39 | bin angles repeat every P bins: the spiral revisits each angle once per cycle |
| Calendar.YearOfMonthAngles | spiral.py:24-39 | the twelve monthly angles are `j/12` for `j = 0..11` |
| Calendar.TwoYearsOfMonths | spiral.py:24-39 | 24 consecutive monthly bins from a January give the twelve monthly angles twice |
| Stats.Sum | spiral.py:78-79 | pandas `sum()`: 0 for no values, otherwise first value plus the sum of the rest (no contract; its properties are `Stats.SumBounds`, `Stats.SumOfOnes`, `Aggregation.SumAppend` and `Aggregation.SumConserved`) |
| Stats.Mean | spiral.py:80-81 | pandas `mean()` of a non-empty series: the mean times the count is the sum |
| Stats.PopVariance | spiral.py:52 | the population variance (divisor N) is non-negative |
| Stats.Min | spiral.py:94 | the minimum is an element of the series and bounds every element from below |
| Stats.Max | spiral.py:94 | the maximum is an element of the series and bounds every element from above |
| Stats.Defined | spiral.py:94 | the values that `np.nanmin` and `np.nanmax` see are exactly the non-NaN entries |
| Stats.DefinedLift | spiral.py:93-94 | a series without NaNs loses nothing when NaNs are skipped |
| Stats.Span | spiral.py:95 | the divisor is never 0: it is the span `hi - lo` when positive, and 1 when the span is zero |
| Stats.Unit | spiral.py:95-96 | the normalised position lies in `[0, 1]` for values in range; it is 0 exactly at the minimum, and 1 exactly at the maximum when the span is positive |
| Stats.UnitRoundTrip | spiral.py:95-96 | the value is recovered from its position: `v = lo + u·span` |
| Stats.UnitMonotone | spiral.py:96 | normalisation keeps the order of values in both directions |
| Stats.MeanWithin | spiral.py:55 | a mean lies between any lower and upper bound of its elements |
| Stats.SumOfOnes | spiral.py:67 | a column of 1.0 sums to its length |
| Stats.SqDevZero | spiral.py:52-53 | zero variance means every element equals the mean |
| Transforms.Index100 | spiral.py:45-47 | length is kept; if `s[0] != 0`, `out[0] = 100` and `out[i] = s[i]/s[0]·100`; if `s[0] = 0`, the divisor is 1 and `out[i] = s[i]·100` |
| Transforms.Index100Idempotent | spiral.py:45-47 | for a non-zero first value, rebasing a rebased series changes nothing |
| Transforms.Index100ScaleFree | spiral.py:45-47 | for a non-zero first value, scaling the series by any non-zero factor does not change its rebased form |
| Transforms.Index100Constant | spiral.py:45-47 | a constant non-zero series rebases to all 100 |
| Transforms.YoY | spiral.py:48-50 | length is kept; entry i is defined iff `i >= lag` and the value `lag` positions earlier is non-zero |
| Transforms.YoYGrowth | spiral.py:48-50 | a defined change g and the earlier value determine the later value, `s[i] = s[i-lag]·(1 + g/100)`, and conversely |
| Transforms.YoYPeriodic | spiral.py:48-50 | a series with period `lag` has zero change wherever the change is defined |
| Transforms.ApplyYoY | spiral.py:48-50 | year-over-year uses lag P: undefined on the first cycle of bins, elsewhere `(s[i]/s[i-P] - 1)·100` for a non-zero base |
| Transforms.ZScore | spiral.py:51-53 | length is kept (its properties are stated by the three lemmas below) |
| Transforms.ZScoreSumsToZero | spiral.py:51-53 | z-scores sum to 0 |
| Transforms.ZScoreUnitVariance | spiral.py:51-53 | with `sd != 0`, the z-scores have mean 0 and population variance 1 |
| Transforms.ZScoreConstant | spiral.py:51-53 | with `sd = 0` (a constant series), the divisor is 1 and every z-score is 0 |
| Transforms.Width | spiral.py:55 | the window is at least 1, and equals `window` when that is at least 1 |
| Transforms.WindowStart | spiral.py:55 | the trailing window ending at i starts at or before i and holds `min(i + 1, w)` values |
| Transforms.Rolling | spiral.py:54-55 | length is kept (its properties are stated by the lemmas below) |
| Transforms.RollingFirst | spiral.py:54-55 | the first rolling mean is the first value |
| Transforms.RollingIdentity | spiral.py:54-55 | a window of 1 or less is the identity |
| Transforms.RollingWithinWindow | spiral.py:54-55 | each rolling mean lies between the minimum and maximum of its window |
| Transforms.RollingConstant | spiral.py:54-55 | a constant series is unchanged |
| Transforms.ApplyTransform | spiral.py:42-56 | length is kept; "index100", "yoy", "zscore" and "rolling" give their transform (year-over-year with lag P); "none" and unrecognised tokens return the series unchanged; only "yoy" can produce NaN |
| Aggregation.HasKeyIff | spiral.py:77 | a bin is occupied iff some row carries its key |
| Aggregation.ValuesIn | spiral.py:77 | a bin's values are empty iff no row falls in the bin |
| Aggregation.Reduce | spiral.py:78-83 | a reduction is NaN iff it is a mean or last of an empty bin; a sum is the sum of the bin's values (0 for an empty bin), a mean of a non-empty bin its mean, and a last its final value |
| Aggregation.MinKey | spiral.py:77 | the first bin is occupied, and no occupied bin comes before it |
| Aggregation.MaxKey | spiral.py:77 | the last bin is occupied, and no occupied bin comes after it |
| Aggregation.Resample | spiral.py:76-77 | one slot per bin, consecutive from the first to the last occupied bin; empty input gives an empty series |
| Aggregation.ResampleSlot | spiral.py:77-83 | each slot holds the reduction of the rows of its bin |
| Aggregation.DropNa | spiral.py:85 | `dropna` never lengthens the series (membership and order are the next two lemmas) |
| Aggregation.DropNaMember | spiral.py:85 | a bucket survives `dropna` iff its slot holds a defined value |
| Aggregation.DropNaAscending | spiral.py:85 | `dropna` keeps bins in order |
| Aggregation.DropNaDefined | spiral.py:85 | a series without NaNs passes `dropna` unchanged |
| Aggregation.Aggregate | spiral.py:77-85 | resample then `dropna`: the result is empty iff there are no rows, and holds no more buckets than there are bins from the first to the last occupied bin (one bucket per bin is `Aggregation.AggregateAscending`) |
| Aggregation.AggregateAscending | spiral.py:76-85 | the aggregated series is strictly ascending by bin, one bucket per bin |
| Aggregation.AggregateValue | spiral.py:76-85 | each bucket holds the reduction of exactly the rows of its bin |
| Aggregation.AggregateKeys | spiral.py:76-85 | a bin survives iff some row falls in it, or (for sum) it lies between the first and last occupied bin |
| Aggregation.SurvivorHasReason | spiral.py:76-85 | a surviving bin holds a row, or is a zero sum within the range |
| Aggregation.ReasonSurvives | spiral.py:76-85 | an occupied bin always survives, and so does any in-range bin under sum |
| Aggregation.SumKeepsEveryBin | spiral.py:78-79 | sum leaves no gaps: one bucket per bin in the range, each holding the sum of its rows |
| Aggregation.SumConserved | spiral.py:78-79 | the bucket sums add up to the column total |
| Aggregation.BinSumsTotal | spiral.py:78-79 | bin sums over bins that cover every row add up to the column total |
| Aggregation.BinSize | spiral.py:82-83 | a bin holds as many values as there are rows with its key |
| Aggregation.LastIsLatest | spiral3d.py:30-31 | `last()` gives the value of the bin's final row in timestamp order |
| Aggregation.MeanOfBin | spiral.py:80-81 | an occupied bin's mean is defined and lies between its smallest and largest value |
| Spiral.RowValue | spiral.py:66-73 | a row contributes 1.0 when counting rows; otherwise its parsed cell, or 0.0 when the cell is missing or not numeric |
| Spiral.Observations | spiral.py:66-77 | one row per record, keyed by the bin its timestamp falls in, carrying the record's row value |
| Spiral.ValueColumnBuckets | spiral.py:72-85 | with a value column, each bucket holds the `sum()` or `mean()` that `--agg` asks for, over the coerced cells of the records in its bin |
| Spiral.ReducerFor | spiral.py:78-83 | "mean" and only "mean" gives the mean; "sum" and "count" both sum |
| Spiral.ResampledSeries | spiral.py:66-85 | the run stops iff there is no value column and the aggregation is not "count"; otherwise the series is ascending by bin |
| Spiral.CountWithValueColumnIsSum | spiral.py:69-83 | "count" with a value column gives the same series as "sum" |
| Spiral.ObservationKeys | spiral.py:66-77 | the rows' bin keys are the records' bin keys |
| Spiral.CountModeCounts | spiral.py:66-83 | in count mode, each bucket holds the number of records in its bin |
| Spiral.CountModeTotal | spiral.py:66-83 | in count mode, the buckets add up to the number of records |
| Spiral.ThreeOnesInOneBin | spiral.py:78-85 | three rows of 1.0 in one bin sum to a single bucket holding 3 |
| Spiral.WeeklyCountOfThree | spiral.py:66-85 | three rows in week 1, counted without a value column, give one weekly bucket holding 3 |
| Spiral.Angles | spiral.py:39-40 | one angle per date, in `[0, 1)`, equal to `(k - 1)/P` for the date's calendar field k |
| Spiral.Radius | spiral.py:93-96 | stops on an empty series; otherwise one radius per value, with NaN exactly where the value is NaN |
| Spiral.RadiusAt | spiral.py:94-96 | a defined value lies between the NaN-skipping min and max, and its radius is its normalised position plus 0.5 |
| Spiral.RadiusBounds | spiral.py:96 | every radius lies in `[0.5, 1.5]` |
| Spiral.RadiusEndpoints | spiral.py:94-96 | the minimum maps to 0.5 and only it does; the maximum maps to 1.5 (and only it does) when the span is positive |
| Spiral.RadiusConstant | spiral.py:95-96 | a series whose defined values are all equal maps them all to 0.5 |
| Spiral.RadiusMonotone | spiral.py:96 | the radius keeps the order of the values, both directions |
| Spiral.Run | spiral.py:66-96 | the run stops iff a value column is required but missing (sum or mean without one) or the series is empty; otherwise there is one point per bucket, at the angle of its bin's label date and with the radius `Spiral.Radius` gives the transformed value, and every defined radius lies in `[0.5, 1.5]` |
| Spiral.RunAngles | spiral.py:76-92 | for months and quarters, each point's angle is its bin's position in the cycle |
| Helix.ReducerFor3D | spiral3d.py:26-31 | "sum" gives the sum, "mean" the mean, and anything else `last()` |
| Helix.MonthRows | spiral3d.py:24-25 | one row per reading, keyed by its month |
| Helix.MonthOf | spiral3d.py:33 | a bucket's month encodes back to its key, and its value is kept |
| Helix.MonthlySeries | spiral3d.py:23-33 | the monthly series is strictly chronological |
| Helix.MonthlyValue | spiral3d.py:26-32 | each month holds the reduction of the readings taken in that month |
| Helix.ObservedIff | spiral3d.py:24-27 | a reading falls in a month iff that month's bin is occupied |
| Helix.ListedIff | spiral3d.py:32-33 | a month is in the series iff its bin survives `dropna` |
| Helix.MonthsWithReadings | spiral3d.py:28-32 | with mean or last, a month appears iff some reading falls in it |
| Helix.LastReadingOfMonth | spiral3d.py:30-31 | `last()` keeps the month's latest reading |
| Helix.FractionalYear | spiral3d.py:40 | twelve times the fractional year is the month's consecutive number, exactly |
| Helix.FractionalYearOrder | spiral3d.py:40 | a later month has a larger fractional year, and conversely |
| Helix.ToHelix | spiral3d.py:35-50 | stops on an empty series; otherwise one point per month |
| Helix.HelixAt | spiral3d.py:37-46 | each point has angle `(month - 1)/12`, the scaled height of its fractional year above the earliest, the mapped radius of its value, and its value unchanged |
| Helix.HelixAngle | spiral3d.py:37-38 | the angle lies in `[0, 1)`, twelve times it is `month - 1`, and equal months get equal angles |
| Helix.RingWithin | spiral3d.py:46 | a position in `[0, 1]` lands in `[rmin, rmax]`; 0 lands on `rmin` and 1 on `rmax`; when `rmin != rmax`, only 0 lands on `rmin` |
| Helix.HelixRadiusBounds | spiral3d.py:43-46 | with `rmin <= rmax`, every radius lies in `[rmin, rmax]` |
| Helix.HelixRadiusEndpoints | spiral3d.py:44-46 | the minimum maps to `rmin`; the maximum maps to `rmax` when the values differ; with `rmin != rmax`, only the minimum maps to `rmin` |
| Helix.HelixConstant | spiral3d.py:44-46 | a series of equal values lies entirely on `rmin` |
| Helix.HeightOrder | spiral3d.py:41 | heights above the earliest year are non-negative for scale ≥ 0, zero at the earliest, and increasing for scale > 0 |
| Helix.HelixHeights | spiral3d.py:40-41 | every height is ≥ 0 for scale ≥ 0, the earliest month is at 0, and a later month is strictly higher for scale > 0 |
| Helix.HeightStep | spiral3d.py:41 | one year later is exactly one scale unit higher |
| Helix.HelixNextYear | spiral3d.py:38-41 | the same month one year later has the same angle and a height exactly `z_year_scale` greater |
| Helix.HelixStartsAtZero | spiral3d.py:40-41 | a chronological helix starts at height 0 |
| Helix.Segments | spiral3d.py:54-55 | n points give `max(0, n-1)` segments; segment i joins point i to point i+1 |
| Helix.SegmentsChain | spiral3d.py:54-55 | the segments form one chain from the first point to the last |
| Helix.Midpoints | spiral3d.py:59 | one colour value per segment, lying between the heights of the segment's two ends |
| Helix.MidpointsRising | spiral3d.py:57-59 | rising heights give rising colour values, each strictly inside its segment |
| Helix.ColourFollowsTime | spiral3d.py:40-59 | along the monthly helix with a positive scale, heights start at 0 and rise, and so do the colour values |

## Left out

- Argument parsing (`parse_args` in both scripts) and CSV loading (`read_csv`). They are configuration and I/O. The options reach the model as parameters.
- Sorting by timestamp (spiral.py:63, spiral3d.py:71). Records and readings are taken as already in timestamp order. Ties under pandas' unstable sort are not modelled.
- The `dropna` of input rows at spiral3d.py:71. Readings are taken without missing dates or values.
- Unparseable timestamps (NaT). Every record has a date.
- Calendar arithmetic: the ISO week, the day of year, the `W-MON` bin edges and labels, and daily bin numbering are inputs in `Calendar.Date`. The date that labels each bin is the `labelOf` parameter of `Spiral.Run`.
- `pd.to_numeric(errors="coerce")`. The cell arrives already parsed as an `Option`, and a missing or non-numeric cell becomes 0.0. `spiral3d.py` does not coerce, and its value column is taken to be numeric.
- The square root inside `std(ddof=0)`. `sd` is a parameter constrained by `Stats.IsStdDev`.
- IEEE floating point: rounding, NaN and inf. Values are exact reals and NaN is `None`.
- Transforms.YoY: year-over-year against a zero base is `None` here. In the source, a non-zero value over a zero base is ±inf (0 over 0 is NaN).
- Spiral.Radius: after a zero-base year-over-year, the source differs from the model. The model skips the entry (`Stats.Defined`) and spreads the other values over `[0.5, 1.5]`. In the source, an inf entry makes `np.nanmax` or `np.nanmin` infinite, so `rng` is inf (spiral.py:94-96). With `+inf`, every finite radius becomes 0.5 and the inf entry NaN; with `-inf`, every radius is NaN. `Spiral.RadiusBounds`, `Spiral.RadiusEndpoints` and `Spiral.Run`'s radius bound therefore describe the program only when no such entry occurs.
- The x = r·cos θ and y = r·sin θ projection (spiral3d.py:48-49). It has no exact model over reals. The helix stops at angle, height and radius.
- Rendering: the polar and 3D plots, `Line3DCollection`, the colormap and `Normalize`, the axis limits (spiral3d.py:57-58, 60-65), the reference ring (spiral3d.py:88-90), ticks and labels (spiral.py:25-38, 104-106), `savefig` and `print`.
- tests/run_smoke_tests.py. It launches the scripts and inspects the PNG files they write.

=== FILE: aggregation.dfy ===
/** Resampling and `dropna`, shared by both scripts: rows carry the key of
    the bin their timestamp falls in, every bin between the first and the
    last occupied one is reduced, and bins whose reduction is NaN are
    dropped. */
module Aggregation {
  import opened Common
  import opened Stats

  /** One row of the frame once its value column is fixed: the key of the bin
      its timestamp falls in, and its value. */
  datatype Obs = Obs(key: int, value: real)

  /** One bin of the resampled series; `None` is a NaN reduction. */
  datatype Slot = Slot(key: int, value: Option<real>)

  /** One bin that survives `dropna`. */
  datatype Bucket = Bucket(key: int, value: real)

  /** The reductions the resampler is asked for: `sum()`, `mean()`, `last()`. */
  datatype Reducer = SumOf | MeanOf | LastOf

  /** Bin keys of the rows, in row order. */
  function Keys(rows: seq<Obs>): (ks: seq<int>)
    ensures |ks| == |rows|
    ensures forall i :: 0 <= i < |rows| ==> ks[i] == rows[i].key
  {
    seq(|rows|, i requires 0 <= i < |rows| => rows[i].key)
  }

  /** Values of the rows, in row order. */
  function Values(rows: seq<Obs>): (vs: seq<real>)
    ensures |vs| == |rows|
    ensures forall i :: 0 <= i < |rows| ==> vs[i] == rows[i].value
  {
    seq(|rows|, i requires 0 <= i < |rows| => rows[i].value)
  }

  /** Values of the surviving buckets, in order. */
  function BucketValues(bs: seq<Bucket>): (vs: seq<real>)
    ensures |vs| == |bs|
    ensures forall i :: 0 <= i < |bs| ==> vs[i] == bs[i].value
  {
    seq(|bs|, i requires 0 <= i < |bs| => bs[i].value)
  }

  /** Some row falls in bin `k`. */
  predicate HasKey(rows: seq<Obs>, k: int)
  {
    |rows| > 0 && (rows[|rows| - 1].key == k || HasKey(rows[..|rows| - 1], k))
  }

  /** `HasKey` says that some row carries the key. */
  lemma {:induction false} HasKeyIff(rows: seq<Obs>, k: int)
    ensures HasKey(rows, k) <==> exists i :: 0 <= i < |rows| && rows[i].key == k
  {
    if |rows| > 0 {
      var init := rows[..|rows| - 1];
      HasKeyIff(init, k);
      if HasKey(init, k) {
        var i :| 0 <= i < |init| && init[i].key == k;
        assert rows[i].key == k;
      }
      if exists i :: 0 <= i < |rows| && rows[i].key == k {
        var i :| 0 <= i < |rows| && rows[i].key == k;
        if i < |rows| - 1 {
          assert init[i].key == k;
        }
      }
    }
  }

  /** Some bucket of the output is bin `k`. */
  predicate HasBucket(bs: seq<Bucket>, k: int)
  {
    exists i :: 0 <= i < |bs| && bs[i].key == k
  }

  /** Values of the rows that fall in bin `k`, in row order. */
  function ValuesIn(rows: seq<Obs>, k: int): (vs: seq<real>)
    ensures |vs| <= |rows|
    ensures |vs| == 0 <==> !HasKey(rows, k)
  {
    if |rows| == 0 then []
    else
      var init := rows[..|rows| - 1];
      if rows[|rows| - 1].key == k then ValuesIn(init, k) + [rows[|rows| - 1].value]
      else ValuesIn(init, k)
  }

  /** The reduction of one bin. `sum()` of an empty bin is 0; `mean()` and
      `last()` of an empty bin are NaN. */
  function Reduce(red: Reducer, vs: seq<real>): (o: Option<real>)
    ensures o.None? <==> red != SumOf && |vs| == 0
    ensures red == SumOf ==> o == Some(Sum(vs))
    ensures red == MeanOf && |vs| > 0 ==> o == Some(Mean(vs))
    ensures red == LastOf && |vs| > 0 ==> o == Some(vs[|vs| - 1])
  {
    match red
    case SumOf => Some(Sum(vs))
    case MeanOf => if |vs| == 0 then None else Some(Mean(vs))
    case LastOf => if |vs| == 0 then None else Some(vs[|vs| - 1])
  }

  /** Key of the earliest occupied bin. */
  function MinKey(rows: seq<Obs>): (m: int)
    requires |rows| > 0
    ensures HasKey(rows, m)
    ensures forall k :: HasKey(rows, k) ==> m <= k
  {
    var last := rows[|rows| - 1].key;
    if |rows| == 1 then last
    else
      var t := MinKey(rows[..|rows| - 1]);
      if last <= t then last else t
  }

  /** Key of the latest occupied bin. */
  function MaxKey(rows: seq<Obs>): (m: int)
    requires |rows| > 0
    ensures HasKey(rows, m)
    ensures forall k :: HasKey(rows, k) ==> k <= m
  {
    var last := rows[|rows| - 1].key;
    if |rows| == 1 then last
    else
      var t := MaxKey(rows[..|rows| - 1]);
      if last >= t then last else t
  }

  /** The slots of bins `lo .. lo+n-1`, each holding the reduction of the
      rows in it. */
  function Bins(red: Reducer, rows: seq<Obs>, lo: int, n: nat): (slots: seq<Slot>)
    ensures |slots| == n
    ensures forall j :: 0 <= j < n ==> slots[j].key == lo + j
  {
    seq(n, j requires 0 <= j < n => Slot(lo + j, Reduce(red, ValuesIn(rows, lo + j))))
  }

  /** The resampled series: one slot per bin from the earliest to the latest
      occupied bin. An empty frame resamples to an empty series. */
  function Resample(red: Reducer, rows: seq<Obs>): (slots: seq<Slot>)
    ensures |rows| == 0 ==> slots == []
    ensures |rows| > 0 ==> |slots| == MaxKey(rows) - MinKey(rows) + 1
    ensures forall j :: 0 <= j < |slots| ==> slots[j].key == MinKey(rows) + j
  {
    if |rows| == 0 then []
    else Bins(red, rows, MinKey(rows), MaxKey(rows) - MinKey(rows) + 1)
  }

  /** Each slot of the resampled series holds the reduction of its bin. */
  lemma ResampleSlot(red: Reducer, rows: seq<Obs>, j: int)
    requires 0 <= j < |Resample(red, rows)|
    ensures Resample(red, rows)[j] == Slot(MinKey(rows) + j, Reduce(red, ValuesIn(rows, MinKey(rows) + j)))
  {
    var lo := MinKey(rows);
    var slots := Bins(red, rows, lo, MaxKey(rows) - lo + 1);
    assert Resample(red, rows) == slots;
    assert slots[j] == Slot(lo + j, Reduce(red, ValuesIn(rows, lo + j)));
  }

  /** Slot keys strictly increase. */
  predicate SlotsAscending(slots: seq<Slot>)
  {
    forall i, j :: 0 <= i < j < |slots| ==> slots[i].key < slots[j].key
  }

  /** Bucket keys strictly increase: the series is in time order, one bucket
      per bin. */
  predicate Ascending(bs: seq<Bucket>)
  {
    forall i, j :: 0 <= i < j < |bs| ==> bs[i].key < bs[j].key
  }

  /** `dropna`: the slots whose value is defined, in order. */
  function DropNa(slots: seq<Slot>): (bs: seq<Bucket>)
    ensures |bs| <= |slots|
  {
    if |slots| == 0 then []
    else
      match slots[0].value
      case None => DropNa(slots[1..])
      case Some(x) => [Bucket(slots[0].key, x)] + DropNa(slots[1..])
  }

  /** A bucket survives `dropna` iff its slot holds a defined value. */
  lemma {:induction false} DropNaMember(slots: seq<Slot>, b: Bucket)
    ensures b in DropNa(slots) <==> Slot(b.key, Some(b.value)) in slots
  {
    if |slots| > 0 {
      DropNaMember(slots[1..], b);
      assert slots == [slots[0]] + slots[1..];
    }
  }

  /** `dropna` keeps the order of the slots. */
  lemma {:induction false} DropNaAscending(slots: seq<Slot>)
    requires SlotsAscending(slots)
    ensures Ascending(DropNa(slots))
  {
    if |slots| > 0 {
      DropNaAscending(slots[1..]);
      var rest := DropNa(slots[1..]);
      forall b | b in rest
        ensures slots[0].key < b.key
      {
        DropNaMember(slots[1..], b);
        var j :| 0 <= j < |slots[1..]| && slots[1..][j] == Slot(b.key, Some(b.value));
        assert slots[j + 1].key == b.key;
      }
    }
  }

  /** Resample, then drop NaN bins. */
  function Aggregate(red: Reducer, rows: seq<Obs>): (bs: seq<Bucket>)
    ensures |bs| == 0 <==> |rows| == 0
    ensures |rows| > 0 ==> |bs| <= MaxKey(rows) - MinKey(rows) + 1
  {
    if |rows| == 0 then DropNa(Resample(red, rows))
    else
      var slots := Resample(red, rows);
      ResampleSlot(red, rows, 0);
      assert slots[0].value.Some?;
      DropNa(slots)
  }

  /** The aggregated series is in ascending bin order, one bucket per bin. */
  lemma AggregateAscending(red: Reducer, rows: seq<Obs>)
    ensures Ascending(Aggregate(red, rows))
  {
    var slots := Resample(red, rows);
    assert SlotsAscending(slots);
    DropNaAscending(slots);
  }

  /** Each bucket holds the reduction of exactly the rows of its bin. */
  lemma AggregateValue(red: Reducer, rows: seq<Obs>, b: Bucket)
    requires b in Aggregate(red, rows)
    ensures Reduce(red, ValuesIn(rows, b.key)) == Some(b.value)
  {
    var slots := Resample(red, rows);
    DropNaMember(slots, b);
    var j :| 0 <= j < |slots| && slots[j] == Slot(b.key, Some(b.value));
    ResampleSlot(red, rows, j);
  }

  /** A surviving bin holds a row, or is a zero sum inside the range. */
  lemma SurvivorHasReason(red: Reducer, rows: seq<Obs>, k: int)
    requires HasBucket(Aggregate(red, rows), k)
    ensures HasKey(rows, k) || (red == SumOf && |rows| > 0 && MinKey(rows) <= k <= MaxKey(rows))
  {
    var bs := Aggregate(red, rows);
    var i :| 0 <= i < |bs| && bs[i].key == k;
    assert bs[i] in bs;
    AggregateValue(red, rows, bs[i]);
    var slots := Resample(red, rows);
    DropNaMember(slots, bs[i]);
  }

  /** The slot of bin `k`, for `k` inside the range of the rows. */
  lemma SlotOf(red: Reducer, rows: seq<Obs>, k: int)
    requires |rows| > 0 && MinKey(rows) <= k <= MaxKey(rows)
    ensures 0 <= k - MinKey(rows) < |Resample(red, rows)|
    ensures Resample(red, rows)[k - MinKey(rows)] == Slot(k, Reduce(red, ValuesIn(rows, k)))
  {
    ResampleSlot(red, rows, k - MinKey(rows));
  }

  /** A bin inside the range survives iff its reduction is defined. */
  lemma InRangeSurvives(red: Reducer, rows: seq<Obs>, k: int)
    requires |rows| > 0 && MinKey(rows) <= k <= MaxKey(rows)
    requires Reduce(red, ValuesIn(rows, k)).Some?
    ensures HasBucket(Aggregate(red, rows), k)
  {
    var b := Bucket(k, Reduce(red, ValuesIn(rows, k)).value);
    SlotOf(red, rows, k);
    DropNaMember(Resample(red, rows), b);
    var bs := Aggregate(red, rows);
    var i :| 0 <= i < |bs| && bs[i] == b;
  }

  /** An occupied bin, or with `sum()` any bin inside the range, survives. */
  lemma ReasonSurvives(red: Reducer, rows: seq<Obs>, k: int)
    requires HasKey(rows, k) || (red == SumOf && |rows| > 0 && MinKey(rows) <= k <= MaxKey(rows))
    ensures HasBucket(Aggregate(red, rows), k)
  {
    assert MinKey(rows) <= k <= MaxKey(rows);
    assert Reduce(red, ValuesIn(rows, k)).Some?;
    InRangeSurvives(red, rows, k);
  }

  /** Which bins survive: a bin is in the output iff some row falls in it or,
      for `sum()`, it lies between the earliest and the latest occupied bin
      (pandas sums an empty bin to 0, which `dropna` keeps). */
  lemma AggregateKeys(red: Reducer, rows: seq<Obs>, k: int)
    ensures HasBucket(Aggregate(red, rows), k)
        <==> HasKey(rows, k) || (red == SumOf && |rows| > 0 && MinKey(rows) <= k <= MaxKey(rows))
  {
    if HasBucket(Aggregate(red, rows), k) {
      SurvivorHasReason(red, rows, k);
    }
    if HasKey(rows, k) || (red == SumOf && |rows| > 0 && MinKey(rows) <= k <= MaxKey(rows)) {
      ReasonSurvives(red, rows, k);
    }
  }

  /** `dropna` of a series without NaNs keeps every slot. */
  lemma {:induction false} DropNaDefined(slots: seq<Slot>)
    requires forall j :: 0 <= j < |slots| ==> slots[j].value.Some?
    ensures |DropNa(slots)| == |slots|
    ensures forall j :: 0 <= j < |slots| ==> DropNa(slots)[j] == Bucket(slots[j].key, slots[j].value.value)
  {
    if |slots| > 0 {
      DropNaDefined(slots[1..]);
    }
  }

  /** Summing keeps every bin from the earliest to the latest occupied one,
      with no gaps. */
  lemma SumKeepsEveryBin(rows: seq<Obs>)
    requires |rows| > 0
    ensures |Aggregate(SumOf, rows)| == MaxKey(rows) - MinKey(rows) + 1
    ensures forall j :: 0 <= j < |Aggregate(SumOf, rows)| ==>
      Aggregate(SumOf, rows)[j] == Bucket(MinKey(rows) + j, Sum(ValuesIn(rows, MinKey(rows) + j)))
  {
    var lo := MinKey(rows);
    var slots := Resample(SumOf, rows);
    forall j | 0 <= j < |slots|
      ensures slots[j] == Slot(lo + j, Some(Sum(ValuesIn(rows, lo + j))))
    {
      ResampleSlot(SumOf, rows, j);
    }
    DropNaDefined(slots);
    assert Aggregate(SumOf, rows) == DropNa(slots);
  }

  /** The number of values in a bin is the number of rows with that key. */
  lemma {:induction false} BinSize(rows: seq<Obs>, k: int)
    ensures |ValuesIn(rows, k)| == multiset(Keys(rows))[k]
  {
    if |rows| > 0 {
      var init := rows[..|rows| - 1];
      BinSize(init, k);
      assert Keys(rows) == Keys(init) + [rows[|rows| - 1].key];
    }
  }

  /** The values of a bin all come from rows with that key. */
  lemma {:induction false} ValuesInFrom(rows: seq<Obs>, k: int, v: real)
    requires forall i :: 0 <= i < |rows| ==> rows[i].value == v
    ensures forall x :: x in ValuesIn(rows, k) ==> x == v
  {
    if |rows| > 0 {
      ValuesInFrom(rows[..|rows| - 1], k, v);
    }
  }

  /** `last()` reduces a bin to the value of its final row: the latest one,
      since rows are in timestamp order. */
  lemma {:induction false} LastIsLatest(rows: seq<Obs>, i: int)
    requires 0 <= i < |rows|
    requires forall j :: i < j < |rows| ==> rows[j].key != rows[i].key
    ensures Reduce(LastOf, ValuesIn(rows, rows[i].key)) == Some(rows[i].value)
  {
    if i < |rows| - 1 {
      LastIsLatest(rows[..|rows| - 1], i);
    }
  }

  /** The mean of a bin lies between its smallest and largest value. */
  lemma MeanOfBin(rows: seq<Obs>, k: int)
    requires HasKey(rows, k)
    ensures Reduce(MeanOf, ValuesIn(rows, k)).Some?
    ensures Min(ValuesIn(rows, k)) <= Reduce(MeanOf, ValuesIn(rows, k)).value <= Max(ValuesIn(rows, k))
  {
    var vs := ValuesIn(rows, k);
    MeanWithin(vs, Min(vs), Max(vs));
  }

  /** Adding `x` at one position adds `x` to the sum. */
  lemma {:induction false} SumUpdate(s: seq<real>, j: int, x: real)
    requires 0 <= j < |s|
    ensures Sum(s[j := s[j] + x]) == Sum(s) + x
  {
    if j > 0 {
      SumUpdate(s[1..], j - 1, x);
      assert s[j := s[j] + x][1..] == s[1..][j - 1 := s[1..][j - 1] + x];
    }
  }

  /** Appending `x` adds `x` to the sum. */
  lemma {:induction false} SumAppend(s: seq<real>, x: real)
    ensures Sum(s + [x]) == Sum(s) + x
  {
    if |s| > 0 {
      SumAppend(s[1..], x);
      assert (s + [x])[1..] == s[1..] + [x];
    }
  }

  /** The sums of the bins `lo .. lo+n-1`. */
  function BinSums(rows: seq<Obs>, lo: int, n: nat): (t: seq<real>)
    ensures |t| == n
  {
    seq(n, j requires 0 <= j < n => Sum(ValuesIn(rows, lo + j)))
  }

  /** When bins `lo .. lo+n-1` cover every row, their sums add up to the sum
      of all values: summing per bin loses and duplicates nothing. */
  lemma {:induction false} BinSumsTotal(rows: seq<Obs>, lo: int, n: nat)
    requires forall k :: HasKey(rows, k) ==> lo <= k < lo + n
    ensures Sum(BinSums(rows, lo, n)) == Sum(Values(rows))
  {
    if |rows| == 0 {
      forall j | 0 <= j < n
        ensures BinSums(rows, lo, n)[j] == 0.0
      {
        assert ValuesIn(rows, lo + j) == [];
        assert Sum(ValuesIn(rows, lo + j)) == 0.0;
      }
      SumOfZeros(BinSums(rows, lo, n));
    } else {
      var init := rows[..|rows| - 1];
      var last := rows[|rows| - 1];
      assert HasKey(rows, last.key);
      forall k | HasKey(init, k)
        ensures lo <= k < lo + n
      {
        assert HasKey(rows, k);
      }
      BinSumsTotal(init, lo, n);
      var before := BinSums(init, lo, n);
      var j := last.key - lo;
      SumAppend(ValuesIn(init, last.key), last.value);
      forall m | 0 <= m < n
        ensures BinSums(rows, lo, n)[m] == before[j := before[j] + last.value][m]
      {
        if m == j {
          assert ValuesIn(rows, lo + m) == ValuesIn(init, last.key) + [last.value];
        } else {
          assert ValuesIn(rows, lo + m) == ValuesIn(init, lo + m);
        }
      }
      assert BinSums(rows, lo, n) == before[j := before[j] + last.value];
      SumUpdate(before, j, last.value);
      assert Values(rows) == Values(init) + [last.value];
      SumAppend(Values(init), last.value);
    }
  }

  /** A series of zeros sums to zero. */
  lemma {:induction false} SumOfZeros(s: seq<real>)
    requires forall i :: 0 <= i < |s| ==> s[i] == 0.0
    ensures Sum(s) == 0.0
  {
    if |s| > 0 {
      SumOfZeros(s[1..]);
    }
  }

  /** Summing per bin conserves the total of the column. */
  lemma SumConserved(rows: seq<Obs>)
    ensures Sum(BucketValues(Aggregate(SumOf, rows))) == Sum(Values(rows))
  {
    if |rows| > 0 {
      SumKeepsEveryBin(rows);
      var lo := MinKey(rows);
      var n := MaxKey(rows) - lo + 1;
      assert BucketValues(Aggregate(SumOf, rows)) == BinSums(rows, lo, n);
      BinSumsTotal(rows, lo, n);
    }
  }
}

=== FILE: calendar.dfy ===
/** The seasonal calendar of `spiral.py`: the cycle length of each frequency,
    the calendar field a date contributes, the period index and angle that
    field gives, and the bucket keys that resampling groups rows by. */
module Calendar {

  /** The four values of `--freq`: M (month), W (week), D (day), Q (quarter). */
  datatype Freq = Month | Week | Day | Quarter

  /** A month number, 1 for January to 12 for December. */
  type MonthNum = m: int | 1 <= m <= 12 witness 1

  /** A timestamp, reduced to the calendar fields the pipeline reads.
      `isoWeek` and `dayOfYear` are what pandas' `isocalendar().week` and
      `dayofyear` report; `weekBin` and `dayNumber` number the weekly bin and
      the day the timestamp falls in. All four are supplied, not computed. */
  datatype Date = Date(year: int, month: MonthNum, isoWeek: int, dayOfYear: int, weekBin: int, dayNumber: int)

  /** Number of buckets in one seasonal cycle (`seasonal_periods`). */
  function SeasonalPeriods(f: Freq): (p: nat)
    ensures p > 0
    ensures f == Month ==> p == 12
    ensures f == Week ==> p == 52
    ensures f == Day ==> p == 365
    ensures f == Quarter ==> p == 4
  {
    match f
    case Month => 12
    case Week => 52
    case Day => 365
    case Quarter => 4
  }

  /** `x` clipped into `[lo, hi]`, as pandas' `clip(lo, hi)`. */
  function Clip(x: int, lo: int, hi: int): (c: int)
    requires lo <= hi
    ensures lo <= c <= hi
    ensures lo <= x <= hi ==> c == x
    ensures x < lo ==> c == lo
    ensures hi < x ==> c == hi
  {
    if x < lo then lo else if hi < x then hi else x
  }

  /** The quarter (1..4) a month falls in, as pandas' `dt.quarter`. */
  function QuarterOf(month: MonthNum): (q: int)
    ensures 1 <= q <= 4
    ensures 3 * (q - 1) < month <= 3 * q
  {
    (month - 1) / 3 + 1
  }

  /** The 1-based calendar field `k` that `angle_and_labels` reads for a
      frequency: the month, the ISO week clipped to 1..52, the day of year
      clipped to 1..365, or the quarter. */
  function CalendarIndex(f: Freq, d: Date): (k: int)
    ensures 1 <= k <= SeasonalPeriods(f)
    ensures f == Month ==> k == d.month
    ensures f == Week ==> k == Clip(d.isoWeek, 1, 52)
    ensures f == Day ==> k == Clip(d.dayOfYear, 1, 365)
    ensures f == Quarter ==> k == QuarterOf(d.month)
  {
    match f
    case Month => d.month
    case Week => Clip(d.isoWeek, 1, 52)
    case Day => Clip(d.dayOfYear, 1, 365)
    case Quarter => QuarterOf(d.month)
  }

  /** Position within the seasonal cycle, `k - 1`. */
  function PeriodIndex(f: Freq, d: Date): (j: int)
    ensures 0 <= j < SeasonalPeriods(f)
  {
    CalendarIndex(f, d) - 1
  }

  /** The fraction `j / p` of a full turn (the source multiplies it by 2π). */
  function Turn(j: int, p: nat): (a: real)
    requires 0 <= j < p
    ensures 0.0 <= a < 1.0
    ensures a * (p as real) == j as real
  {
    (j as real) / (p as real)
  }

  /** Angle of a date, as a fraction of a turn: `(k - 1) / p`. */
  function Angle(f: Freq, d: Date): (a: real)
    ensures 0.0 <= a < 1.0
    ensures a * (SeasonalPeriods(f) as real) == PeriodIndex(f, d) as real
  {
    Turn(PeriodIndex(f, d), SeasonalPeriods(f))
  }

  /** The angle depends on the calendar field only: two dates with the same
      field value get the same angle, and the angle lies in `[0, 1)`. */
  lemma AngleOfField(f: Freq, d1: Date, d2: Date)
    requires CalendarIndex(f, d1) == CalendarIndex(f, d2)
    ensures Angle(f, d1) == Angle(f, d2)
    ensures 0.0 <= Angle(f, d1) < 1.0
  {
  }

  /** Dates in the same month get the same monthly and quarterly angle,
      whatever their year. */
  lemma SameMonthSameAngle(d1: Date, d2: Date)
    requires d1.month == d2.month
    ensures Angle(Month, d1) == Angle(Month, d2)
    ensures Angle(Quarter, d1) == Angle(Quarter, d2)
  {
  }

  // ---------------------------------------------------------------------
  // Bucket keys: the resampling rule "MS" groups by (year, month), "QS" by
  // (year, quarter); both are numbered consecutively here.

  /** Consecutive number of the month `(year, month)`. */
  function MonthKey(year: int, month: MonthNum): (k: int)
    ensures k / 12 == year && k % 12 == month - 1
  {
    year * 12 + month - 1
  }

  /** Year of a month key. */
  function KeyYear(k: int): int
  {
    k / 12
  }

  /** Month of a month key. */
  function KeyMonth(k: int): MonthNum
  {
    k % 12 + 1
  }

  /** A month key decodes to its year and month. */
  lemma MonthKeyDecode(year: int, month: MonthNum)
    ensures KeyYear(MonthKey(year, month)) == year
    ensures KeyMonth(MonthKey(year, month)) == month
  {
    var k := MonthKey(year, month);
    assert k == 12 * year + (month - 1);
  }

  /** Every integer is the key of the month it decodes to. */
  lemma MonthKeyEncode(k: int)
    ensures MonthKey(KeyYear(k), KeyMonth(k)) == k
  {
  }

  /** Month keys order months chronologically: by year, then by month. */
  lemma MonthKeyOrder(y1: int, m1: MonthNum, y2: int, m2: MonthNum)
    ensures MonthKey(y1, m1) < MonthKey(y2, m2) <==> y1 < y2 || (y1 == y2 && m1 < m2)
  {
    if y1 < y2 {
      assert MonthKey(y1, m1) < (y1 + 1) * 12 <= MonthKey(y2, m2);
    } else if y2 < y1 {
      assert MonthKey(y2, m2) < (y2 + 1) * 12 <= MonthKey(y1, m1);
    }
  }

  /** Consecutive number of the quarter `(year, quarter)`. */
  function QuarterKey(year: int, quarter: int): (k: int)
    requires 1 <= quarter <= 4
    ensures k / 4 == year && k % 4 == quarter - 1
  {
    year * 4 + quarter - 1
  }

  /** A quarter key gives back its quarter as the position in the cycle. */
  lemma QuarterKeyDecode(year: int, quarter: int)
    requires 1 <= quarter <= 4
    ensures QuarterKey(year, quarter) % 4 == quarter - 1
    ensures QuarterKey(year, quarter) / 4 == year
  {
    var k := QuarterKey(year, quarter);
    assert k == 4 * year + (quarter - 1);
  }

  /** The key of the resampling bin a date falls in: month and quarter bins
      are numbered from the date; weekly (`W-MON`) and daily bins use the
      supplied bin numbers. */
  function BucketKey(f: Freq, d: Date): (k: int)
    ensures f == Month || f == Quarter ==> k % SeasonalPeriods(f) == PeriodIndex(f, d)
    ensures f == Month ==> k / 12 == d.year
    ensures f == Quarter ==> k / 4 == d.year
    ensures f == Week ==> k == d.weekBin
    ensures f == Day ==> k == d.dayNumber
  {
    match f
    case Month => MonthKey(d.year, d.month)
    case Quarter => QuarterKey(d.year, QuarterOf(d.month))
    case Week => d.weekBin
    case Day => d.dayNumber
  }

  /** Angle of a monthly or quarterly bucket, read off its start date (the
      first day of the month or quarter that labels the bin). */
  function BucketAngle(f: Freq, k: int): (a: real)
    requires f == Month || f == Quarter
    ensures 0.0 <= a < 1.0
  {
    Turn(k % SeasonalPeriods(f), SeasonalPeriods(f))
  }

  /** A month or quarter bucket's angle is the angle of every date in it. */
  lemma BucketAngleOfDate(f: Freq, d: Date)
    requires f == Month || f == Quarter
    ensures BucketAngle(f, BucketKey(f, d)) == Angle(f, d)
  {
    if f == Month {
      MonthKeyDecode(d.year, d.month);
    } else {
      QuarterKeyDecode(d.year, QuarterOf(d.month));
    }
  }

  /** The angle depends on the position in the cycle only, so it repeats
      every `p` buckets: the spiral revisits each angle once per cycle. */
  lemma BucketAngleCycles(f: Freq, k: int, n: int)
    requires f == Month || f == Quarter
    ensures BucketAngle(f, k + n * SeasonalPeriods(f)) == BucketAngle(f, k)
  {
    var p := SeasonalPeriods(f);
    assert (k + n * p) % p == k % p by {
      if f == Month {
        assert k + n * p == k + 12 * n;
      } else {
        assert k + n * p == k + 4 * n;
      }
    }
  }

  /** The angles of one year of months, from January: 0, 1/12, ..., 11/12. */
  function YearOfMonthAngles(): (r: seq<real>)
    ensures |r| == 12
    ensures forall j :: 0 <= j < 12 ==> r[j] * 12.0 == j as real
  {
    seq(12, j requires 0 <= j < 12 => Turn(j, 12))
  }

  /** Twenty-four consecutive monthly buckets starting in a January produce
      the twelve monthly angles twice over. */
  lemma TwoYearsOfMonths(k0: int)
    requires k0 % 12 == 0
    ensures seq(24, i requires 0 <= i < 24 => BucketAngle(Month, k0 + i))
         == YearOfMonthAngles() + YearOfMonthAngles()
  {
    var year := YearOfMonthAngles();
    var angles := seq(24, i requires 0 <= i < 24 => BucketAngle(Month, k0 + i));
    forall i | 0 <= i < 24
      ensures angles[i] == (year + year)[i]
    {
      assert angles[i] == BucketAngle(Month, k0 + i);
      assert BucketAngle(Month, k0 + i) == Turn((k0 + i) % 12, 12);
      if i < 12 {
        assert (k0 + i) % 12 == i;
        assert (year + year)[i] == year[i];
      } else {
        assert (k0 + i) % 12 == i - 12;
        assert (year + year)[i] == year[i - 12];
      }
    }
  }
}

=== FILE: common.dfy ===
/** Failure-carrying wrappers shared by the pipeline's modules. */
module Common {

  /** A value that may be missing; `None` stands for pandas' NaN. */
  datatype Option<+T> = None | Some(value: T)

  /** The outcome of a step that can stop with a configuration error. */
  datatype Result<+T, +E> = Ok(value: T) | Err(error: E)
}

=== FILE: helix.dfy ===
/** The 3D climate-style helix of `spiral3d.py`: monthly bucketing with sum,
    mean or last, the helix coordinates (angle by month, height by
    fractional year, radius by value), and the consecutive segments and
    their colour values. */
module Helix {
  import opened Common
  import opened Stats
  import opened Calendar
  import opened Aggregation

  /** One CSV row after `dropna` (line 71): year and month of its timestamp
      and its value. */
  datatype Reading = Reading(year: int, month: MonthNum, value: real)

  /** One month of the monthly series: the month that labels the bin and the
      reduced value. */
  datatype MonthPoint = MonthPoint(year: int, month: MonthNum, value: real)

  /** A point of the helix: the angle as a fraction of a turn, the height,
      the radius and the value it was drawn from. */
  datatype HelixPoint = HelixPoint(theta: real, z: real, r: real, v: real)

  /** The reducer of `monthly_series`: `sum()` for "sum", `mean()` for
      "mean", `last()` for anything else. */
  function ReducerFor3D(agg: string): (red: Reducer)
    ensures red == SumOf <==> agg == "sum"
    ensures red == MeanOf <==> agg == "mean"
  {
    if agg == "sum" then SumOf
    else if agg == "mean" then MeanOf
    else LastOf
  }

  /** The rows handed to the monthly (`MS`) resampler: month key and value. */
  function MonthRows(readings: seq<Reading>): (rows: seq<Obs>)
    ensures |rows| == |readings|
    ensures forall i :: 0 <= i < |readings| ==> rows[i].key == MonthKey(readings[i].year, readings[i].month)
  {
    seq(|readings|, i requires 0 <= i < |readings| =>
      Obs(MonthKey(readings[i].year, readings[i].month), readings[i].value))
  }

  /** The month a bucket stands for. */
  function MonthOf(b: Bucket): (p: MonthPoint)
    ensures MonthKey(p.year, p.month) == b.key
    ensures p.value == b.value
  {
    MonthKeyEncode(b.key);
    MonthPoint(KeyYear(b.key), KeyMonth(b.key), b.value)
  }

  /** Month points strictly increase in time. */
  predicate Chronological(ms: seq<MonthPoint>)
  {
    forall i, j :: 0 <= i < j < |ms| ==> MonthKey(ms[i].year, ms[i].month) < MonthKey(ms[j].year, ms[j].month)
  }

  /** `monthly_series`: resample by month start, reduce, drop NaN months.
      The series is in time order, one point per month. */
  function MonthlySeries(readings: seq<Reading>, agg: string): (ms: seq<MonthPoint>)
    ensures Chronological(ms)
  {
    var bs := Aggregate(ReducerFor3D(agg), MonthRows(readings));
    AggregateAscending(ReducerFor3D(agg), MonthRows(readings));
    seq(|bs|, i requires 0 <= i < |bs| => MonthOf(bs[i]))
  }

  /** Each month of the series holds the reduction of the readings taken in
      that month. */
  lemma MonthlyValue(readings: seq<Reading>, agg: string, i: int)
    requires 0 <= i < |MonthlySeries(readings, agg)|
    ensures var p := MonthlySeries(readings, agg)[i];
      Reduce(ReducerFor3D(agg), ValuesIn(MonthRows(readings), MonthKey(p.year, p.month))) == Some(p.value)
  {
    var bs := Aggregate(ReducerFor3D(agg), MonthRows(readings));
    assert bs[i] in bs;
    AggregateValue(ReducerFor3D(agg), MonthRows(readings), bs[i]);
  }

  /** Some reading falls in month `(year, month)`. */
  predicate Observed(readings: seq<Reading>, year: int, month: MonthNum)
  {
    exists i :: 0 <= i < |readings| && readings[i].year == year && readings[i].month == month
  }

  /** The series has a point for month `(year, month)`. */
  predicate Listed(ms: seq<MonthPoint>, year: int, month: MonthNum)
  {
    exists i :: 0 <= i < |ms| && ms[i].year == year && ms[i].month == month
  }

  /** A reading in month `(year, month)` is a row in that month's bin. */
  lemma ObservedIff(readings: seq<Reading>, year: int, month: MonthNum)
    ensures Observed(readings, year, month) <==> HasKey(MonthRows(readings), MonthKey(year, month))
  {
    var rows := MonthRows(readings);
    HasKeyIff(rows, MonthKey(year, month));
    if HasKey(rows, MonthKey(year, month)) {
      var i :| 0 <= i < |rows| && rows[i].key == MonthKey(year, month);
      MonthKeyDecode(year, month);
      MonthKeyDecode(readings[i].year, readings[i].month);
    }
    if Observed(readings, year, month) {
      var i :| 0 <= i < |readings| && readings[i].year == year && readings[i].month == month;
      assert rows[i].key == MonthKey(year, month);
    }
  }

  /** A month is in the series iff its bin survives `dropna`. */
  lemma ListedIff(readings: seq<Reading>, agg: string, year: int, month: MonthNum)
    ensures Listed(MonthlySeries(readings, agg), year, month)
        <==> HasBucket(Aggregate(ReducerFor3D(agg), MonthRows(readings)), MonthKey(year, month))
  {
    var bs := Aggregate(ReducerFor3D(agg), MonthRows(readings));
    var ms := MonthlySeries(readings, agg);
    MonthKeyDecode(year, month);
    if Listed(ms, year, month) {
      var i :| 0 <= i < |ms| && ms[i].year == year && ms[i].month == month;
      assert bs[i].key == MonthKey(year, month);
    }
    if HasBucket(bs, MonthKey(year, month)) {
      var i :| 0 <= i < |bs| && bs[i].key == MonthKey(year, month);
      assert ms[i] == MonthOf(bs[i]);
      MonthKeyDecode(ms[i].year, ms[i].month);
    }
  }

  /** With "mean" or "last", exactly the months that hold a reading appear:
      an empty month is NaN and is dropped. */
  lemma MonthsWithReadings(readings: seq<Reading>, agg: string, year: int, month: MonthNum)
    requires agg != "sum"
    ensures Listed(MonthlySeries(readings, agg), year, month) <==> Observed(readings, year, month)
  {
    ListedIff(readings, agg, year, month);
    ObservedIff(readings, year, month);
    AggregateKeys(ReducerFor3D(agg), MonthRows(readings), MonthKey(year, month));
  }

  /** "last" keeps the value of the latest reading of the month, since the
      readings are sorted by timestamp. */
  lemma LastReadingOfMonth(readings: seq<Reading>, i: int)
    requires 0 <= i < |readings|
    requires forall j :: i < j < |readings| ==>
      readings[j].year != readings[i].year || readings[j].month != readings[i].month
    ensures Reduce(LastOf, ValuesIn(MonthRows(readings), MonthKey(readings[i].year, readings[i].month)))
         == Some(readings[i].value)
  {
    var rows := MonthRows(readings);
    forall j | i < j < |rows|
      ensures rows[j].key != rows[i].key
    {
      MonthKeyOrder(readings[i].year, readings[i].month, readings[j].year, readings[j].month);
      MonthKeyOrder(readings[j].year, readings[j].month, readings[i].year, readings[i].month);
    }
    LastIsLatest(rows, i);
  }

  // ---------------------------------------------------------------------
  // Helix coordinates (`to_helix_coords`).

  /** The fractional year `year + (month - 1) / 12` of line 40. */
  function FractionalYear(year: int, month: MonthNum): (y: real)
    ensures y * 12.0 == MonthKey(year, month) as real
  {
    year as real + ((month - 1) as real) / 12.0
  }

  /** The fractional years of the series. */
  function Years(ms: seq<MonthPoint>): (ys: seq<real>)
    ensures |ys| == |ms|
    ensures forall i :: 0 <= i < |ms| ==> ys[i] == FractionalYear(ms[i].year, ms[i].month)
  {
    seq(|ms|, i requires 0 <= i < |ms| => FractionalYear(ms[i].year, ms[i].month))
  }

  /** The values of the series. */
  function MonthValues(ms: seq<MonthPoint>): (vs: seq<real>)
    ensures |vs| == |ms|
    ensures forall i :: 0 <= i < |ms| ==> vs[i] == ms[i].value
  {
    seq(|ms|, i requires 0 <= i < |ms| => ms[i].value)
  }

  /** Height of fractional year `y` above the earliest one, `y0`, at `s`
      units per year (line 41). */
  function Height(y: real, y0: real, s: real): real
  {
    (y - y0) * s
  }

  /** Radius of normalised position `u` mapped into `[rmin, rmax]` (line 46). */
  function Ring(u: real, rmin: real, rmax: real): real
  {
    rmin + u * (rmax - rmin)
  }

  /** The helix point of one month, given the earliest fractional year `y0`
      and the value range `[lo, hi]`. */
  function PointOf(p: MonthPoint, y0: real, lo: real, hi: real, rmin: real, rmax: real, zScale: real): HelixPoint
    requires lo <= hi
  {
    HelixPoint(Turn(p.month - 1, 12),
               Height(FractionalYear(p.year, p.month), y0, zScale),
               Ring(Unit(p.value, lo, hi), rmin, rmax),
               p.value)
  }

  /** `to_helix_coords` without the projection to x and y: angle from the
      month, height from the fractional year above the earliest one, radius
      from the value's position in its range. An empty series has no
      minimum and the run stops. */
  function ToHelix(ms: seq<MonthPoint>, rmin: real, rmax: real, zScale: real): (h: Option<seq<HelixPoint>>)
    ensures h.None? <==> |ms| == 0
    ensures h.Some? ==> |h.value| == |ms|
  {
    if |ms| == 0 then None
    else
      var vs := MonthValues(ms);
      var lo, hi := Min(vs), Max(vs);
      assert lo <= hi by {
        assert hi in vs;
      }
      var y0 := Min(Years(ms));
      Some(seq(|ms|, i requires 0 <= i < |ms| => PointOf(ms[i], y0, lo, hi, rmin, rmax, zScale)))
  }

  /** One point of the helix, field by field. */
  lemma HelixAt(ms: seq<MonthPoint>, rmin: real, rmax: real, zScale: real, i: int)
    requires 0 <= i < |ms|
    ensures ToHelix(ms, rmin, rmax, zScale).Some?
    ensures Min(MonthValues(ms)) <= ms[i].value <= Max(MonthValues(ms))
    ensures ToHelix(ms, rmin, rmax, zScale).value[i].theta == Turn(ms[i].month - 1, 12)
    ensures ToHelix(ms, rmin, rmax, zScale).value[i].z
         == Height(FractionalYear(ms[i].year, ms[i].month), Min(Years(ms)), zScale)
    ensures ToHelix(ms, rmin, rmax, zScale).value[i].r
         == Ring(Unit(ms[i].value, Min(MonthValues(ms)), Max(MonthValues(ms))), rmin, rmax)
    ensures ToHelix(ms, rmin, rmax, zScale).value[i].v == ms[i].value
  {
    var vs := MonthValues(ms);
    assert vs[i] == ms[i].value;
    var lo, hi := Min(vs), Max(vs);
    var y0 := Min(Years(ms));
    assert ToHelix(ms, rmin, rmax, zScale).value[i] == PointOf(ms[i], y0, lo, hi, rmin, rmax, zScale);
  }

  /** The angle is the month's place in the year: `(month - 1) / 12` of a
      turn, so equal months get equal angles. */
  lemma HelixAngle(ms: seq<MonthPoint>, rmin: real, rmax: real, zScale: real, i: int, j: int)
    requires 0 <= i < |ms| && 0 <= j < |ms|
    ensures var h := ToHelix(ms, rmin, rmax, zScale).value;
      0.0 <= h[i].theta < 1.0 && h[i].theta * 12.0 == (ms[i].month - 1) as real
    ensures ms[i].month == ms[j].month ==>
      ToHelix(ms, rmin, rmax, zScale).value[i].theta == ToHelix(ms, rmin, rmax, zScale).value[j].theta
  {
    HelixAt(ms, rmin, rmax, zScale, i);
    HelixAt(ms, rmin, rmax, zScale, j);
  }

  /** Every radius lies in `[rmin, rmax]` when `rmin <= rmax`. */
  lemma HelixRadiusBounds(ms: seq<MonthPoint>, rmin: real, rmax: real, zScale: real, i: int)
    requires 0 <= i < |ms| && rmin <= rmax
    ensures rmin <= ToHelix(ms, rmin, rmax, zScale).value[i].r <= rmax
  {
    HelixAt(ms, rmin, rmax, zScale, i);
    RingWithin(Unit(ms[i].value, Min(MonthValues(ms)), Max(MonthValues(ms))), rmin, rmax);
  }

  /** A position in `[0, 1]` lands in `[rmin, rmax]`; 0 lands on `rmin` and 1
      on `rmax`, and when `rmin != rmax` only 0 lands on `rmin`. */
  lemma RingWithin(u: real, rmin: real, rmax: real)
    ensures 0.0 <= u <= 1.0 && rmin <= rmax ==> rmin <= Ring(u, rmin, rmax) <= rmax
    ensures u == 0.0 ==> Ring(u, rmin, rmax) == rmin
    ensures u == 1.0 ==> Ring(u, rmin, rmax) == rmax
    ensures rmin != rmax && Ring(u, rmin, rmax) == rmin ==> u == 0.0
  {
    var d := rmax - rmin;
    assert d - u * d == (1.0 - u) * d;
    if 0.0 <= u <= 1.0 && rmin <= rmax {
      MulNonneg(u, d);
      MulNonneg(1.0 - u, d);
    }
    if rmin != rmax && Ring(u, rmin, rmax) == rmin {
      assert u * d == 0.0;
      DivCancel(u, d);
      assert u == (u * d) / d;
    }
  }

  /** The smallest value maps to `rmin`, and the largest to `rmax` when the
      values differ; when `rmin != rmax` nothing else maps to either. */
  lemma HelixRadiusEndpoints(ms: seq<MonthPoint>, rmin: real, rmax: real, zScale: real, i: int)
    requires 0 <= i < |ms|
    ensures ms[i].value == Min(MonthValues(ms)) ==> ToHelix(ms, rmin, rmax, zScale).value[i].r == rmin
    ensures Min(MonthValues(ms)) < Max(MonthValues(ms)) && ms[i].value == Max(MonthValues(ms))
      ==> ToHelix(ms, rmin, rmax, zScale).value[i].r == rmax
    ensures rmin != rmax && ToHelix(ms, rmin, rmax, zScale).value[i].r == rmin
      ==> ms[i].value == Min(MonthValues(ms))
  {
    HelixAt(ms, rmin, rmax, zScale, i);
    RingWithin(Unit(ms[i].value, Min(MonthValues(ms)), Max(MonthValues(ms))), rmin, rmax);
  }

  /** A series of equal values lies on the inner radius. */
  lemma HelixConstant(ms: seq<MonthPoint>, rmin: real, rmax: real, zScale: real, c: real)
    requires |ms| > 0
    requires forall i :: 0 <= i < |ms| ==> ms[i].value == c
    ensures forall i :: 0 <= i < |ms| ==> ToHelix(ms, rmin, rmax, zScale).value[i].r == rmin
  {
    var vs := MonthValues(ms);
    assert Min(vs) in vs;
    forall i | 0 <= i < |ms|
      ensures ToHelix(ms, rmin, rmax, zScale).value[i].r == rmin
    {
      HelixRadiusEndpoints(ms, rmin, rmax, zScale, i);
    }
  }

  /** A later month has a larger fractional year. */
  lemma FractionalYearOrder(y1: int, m1: MonthNum, y2: int, m2: MonthNum)
    ensures MonthKey(y1, m1) < MonthKey(y2, m2) <==> FractionalYear(y1, m1) < FractionalYear(y2, m2)
  {
  }

  /** Heights are never negative for a non-negative scale, the earliest
      month sits at height 0, and with a positive scale a later month sits
      strictly higher. */
  lemma HelixHeights(ms: seq<MonthPoint>, rmin: real, rmax: real, zScale: real, i: int, j: int)
    requires 0 <= i < |ms| && 0 <= j < |ms|
    ensures zScale >= 0.0 ==> ToHelix(ms, rmin, rmax, zScale).value[i].z >= 0.0
    ensures FractionalYear(ms[i].year, ms[i].month) == Min(Years(ms)) ==> ToHelix(ms, rmin, rmax, zScale).value[i].z == 0.0
    ensures zScale > 0.0 && MonthKey(ms[i].year, ms[i].month) < MonthKey(ms[j].year, ms[j].month)
      ==> ToHelix(ms, rmin, rmax, zScale).value[i].z < ToHelix(ms, rmin, rmax, zScale).value[j].z
  {
    HelixAt(ms, rmin, rmax, zScale, i);
    HelixAt(ms, rmin, rmax, zScale, j);
    var y0 := Min(Years(ms));
    var yi := FractionalYear(ms[i].year, ms[i].month);
    var yj := FractionalYear(ms[j].year, ms[j].month);
    assert Years(ms)[i] == yi;
    FractionalYearOrder(ms[i].year, ms[i].month, ms[j].year, ms[j].month);
    HeightOrder(yi, yj, y0, zScale);
  }

  /** Heights above `y0` are non-negative for `s >= 0`, `y0` itself is at
      height 0, and a positive `s` keeps the order of the years. */
  lemma HeightOrder(a: real, b: real, y0: real, s: real)
    requires y0 <= a
    ensures s >= 0.0 ==> Height(a, y0, s) >= 0.0
    ensures a == y0 ==> Height(a, y0, s) == 0.0
    ensures s > 0.0 && a < b ==> Height(a, y0, s) < Height(b, y0, s)
  {
    var p, q := a - y0, b - y0;
    assert Height(a, y0, s) == p * s && Height(b, y0, s) == q * s;
    if s >= 0.0 {
      MulNonneg(p, s);
    }
    if s > 0.0 && a < b {
      MulStrict(p, q, s);
    }
  }

  /** Product of non-negative reals is non-negative. */
  lemma MulNonneg(a: real, s: real)
    requires a >= 0.0 && s >= 0.0
    ensures a * s >= 0.0
  {
  }

  /** Scaling by a positive factor keeps a strict order. */
  lemma MulStrict(a: real, b: real, s: real)
    requires a < b && s > 0.0
    ensures a * s < b * s
  {
    assert b * s - a * s == (b - a) * s;
  }

  /** The same month one year later sits at the same angle, exactly one
      `zScale` higher. */
  lemma HelixNextYear(ms: seq<MonthPoint>, rmin: real, rmax: real, zScale: real, i: int, j: int)
    requires 0 <= i < |ms| && 0 <= j < |ms|
    requires ms[j].year == ms[i].year + 1 && ms[j].month == ms[i].month
    ensures ToHelix(ms, rmin, rmax, zScale).value[j].theta == ToHelix(ms, rmin, rmax, zScale).value[i].theta
    ensures ToHelix(ms, rmin, rmax, zScale).value[j].z == ToHelix(ms, rmin, rmax, zScale).value[i].z + zScale
  {
    HelixAt(ms, rmin, rmax, zScale, i);
    HelixAt(ms, rmin, rmax, zScale, j);
    var y0 := Min(Years(ms));
    var yi := FractionalYear(ms[i].year, ms[i].month);
    assert FractionalYear(ms[j].year, ms[j].month) == yi + 1.0;
    HeightStep(yi, y0, zScale);
  }

  /** One year more is one `s` higher. */
  lemma HeightStep(y: real, y0: real, s: real)
    ensures Height(y + 1.0, y0, s) == Height(y, y0, s) + s
  {
    assert (y + 1.0 - y0) * s == (y - y0) * s + s;
  }

  /** For a chronological series the first month is the earliest: the helix
      starts at height 0. */
  lemma HelixStartsAtZero(ms: seq<MonthPoint>, rmin: real, rmax: real, zScale: real)
    requires |ms| > 0 && Chronological(ms)
    ensures ToHelix(ms, rmin, rmax, zScale).value[0].z == 0.0
  {
    var ys := Years(ms);
    forall i | 0 <= i < |ms|
      ensures ys[0] <= ys[i]
    {
      if i > 0 {
        FractionalYearOrder(ms[0].year, ms[0].month, ms[i].year, ms[i].month);
      }
    }
    assert Min(ys) in ys;
    assert Min(ys) == ys[0];
    HelixHeights(ms, rmin, rmax, zScale, 0, 0);
  }

  // ---------------------------------------------------------------------
  // Segments and colour values (`line3d_with_colormap`, lines 54-59).

  /** The segments between consecutive points: `n` points give `n - 1`
      segments (none for fewer than two points), segment `i` running from
      point `i` to point `i + 1`. */
  function Segments<T>(pts: seq<T>): (segs: seq<(T, T)>)
    ensures |segs| == if |pts| == 0 then 0 else |pts| - 1
    ensures forall i :: 0 <= i < |segs| ==> segs[i].0 == pts[i] && segs[i].1 == pts[i + 1]
  {
    if |pts| == 0 then []
    else seq(|pts| - 1, i requires 0 <= i < |pts| - 1 => (pts[i], pts[i + 1]))
  }

  /** The segments form one chain: each ends where the next starts, the
      first starts at the first point and the last ends at the last point. */
  lemma SegmentsChain<T>(pts: seq<T>)
    requires |pts| >= 2
    ensures var segs := Segments(pts);
      segs[0].0 == pts[0] && segs[|segs| - 1].1 == pts[|pts| - 1]
      && forall i :: 0 <= i < |segs| - 1 ==> segs[i].1 == segs[i + 1].0
  {
  }

  /** The colour values `(z[:-1] + z[1:]) / 2`: one per segment, each lying
      between the heights of its two ends. */
  function Midpoints(z: seq<real>): (m: seq<real>)
    ensures |m| == if |z| == 0 then 0 else |z| - 1
    ensures forall i :: 0 <= i < |m| ==>
      (z[i] <= z[i + 1] ==> z[i] <= m[i] <= z[i + 1]) && (z[i + 1] <= z[i] ==> z[i + 1] <= m[i] <= z[i])
  {
    if |z| == 0 then []
    else seq(|z| - 1, i requires 0 <= i < |z| - 1 => (z[i] + z[i + 1]) / 2.0)
  }

  /** Rising heights give rising colour values, each strictly between the
      heights of its segment's ends. */
  lemma MidpointsRising(z: seq<real>)
    requires forall i, j :: 0 <= i < j < |z| ==> z[i] < z[j]
    ensures forall i :: 0 <= i < |Midpoints(z)| ==> z[i] < Midpoints(z)[i] < z[i + 1]
    ensures forall i, j :: 0 <= i < j < |Midpoints(z)| ==> Midpoints(z)[i] < Midpoints(z)[j]
  {
    var m := Midpoints(z);
    forall i | 0 <= i < |m|
      ensures z[i] < m[i] < z[i + 1]
    {
      assert m[i] == (z[i] + z[i + 1]) / 2.0;
    }
  }

  /** The heights of the helix points. */
  function Heights(h: seq<HelixPoint>): (z: seq<real>)
    ensures |z| == |h|
    ensures forall i :: 0 <= i < |h| ==> z[i] == h[i].z
  {
    seq(|h|, i requires 0 <= i < |h| => h[i].z)
  }

  /** Along the monthly helix with a positive scale, heights and colour
      values both rise from 0: the colour follows time. */
  lemma ColourFollowsTime(readings: seq<Reading>, agg: string, rmin: real, rmax: real, zScale: real)
    requires |MonthlySeries(readings, agg)| > 0 && zScale > 0.0
    ensures var z := Heights(ToHelix(MonthlySeries(readings, agg), rmin, rmax, zScale).value);
      z[0] == 0.0
      && (forall i, j :: 0 <= i < j < |z| ==> z[i] < z[j])
      && (forall i, j :: 0 <= i < j < |Midpoints(z)| ==> Midpoints(z)[i] < Midpoints(z)[j])
  {
    var ms := MonthlySeries(readings, agg);
    var z := Heights(ToHelix(ms, rmin, rmax, zScale).value);
    HelixStartsAtZero(ms, rmin, rmax, zScale);
    forall i, j | 0 <= i < j < |z|
      ensures z[i] < z[j]
    {
      HelixHeights(ms, rmin, rmax, zScale, i, j);
    }
    MidpointsRising(z);
  }
}

=== FILE: spiral.dfy ===
/** The 2D seasonal spiral of `spiral.py`: choosing the value column or the
    counting mode, resampling and dropping NaN bins, transforming, and
    mapping each bucket to an angle and a radius in `[0.5, 1.5]`. */
module Spiral {
  import opened Common
  import opened Stats
  import opened Calendar
  import opened Aggregation
  import opened Transforms

  /** One CSV row: the calendar fields of its timestamp, and the cell of the
      value column as `pd.to_numeric(errors="coerce")` reads it (`None` when
      the cell is missing or not numeric, or when there is no value column). */
  datatype Record = Record(date: Date, raw: Option<real>)

  /** Why a run stops before plotting. */
  datatype RunError =
    | ValueColumnRequired  // sum or mean without `--value-col`
    | EmptySeries          // `np.nanmin` of an empty array raises

  /** A point of the polar plot: the angle as a fraction of a turn, and the
      radius (`None` where the transformed value is NaN). */
  datatype Point = Point(theta: real, r: Option<real>)

  /** The run counts rows: `--agg=count` without `--value-col`. */
  predicate CountsRows(agg: string, hasValueCol: bool)
  {
    agg == "count" && !hasValueCol
  }

  /** The value a row contributes: 1.0 when counting rows, otherwise the
      coerced cell, with a non-numeric or missing cell read as 0.0. */
  function RowValue(agg: string, hasValueCol: bool, rec: Record): (v: real)
    ensures CountsRows(agg, hasValueCol) ==> v == 1.0
    ensures !CountsRows(agg, hasValueCol) && rec.raw.Some? ==> v == rec.raw.value
    ensures !CountsRows(agg, hasValueCol) && rec.raw.None? ==> v == 0.0
  {
    if CountsRows(agg, hasValueCol) then 1.0
    else match rec.raw
      case Some(x) => x
      case None => 0.0
  }

  /** The rows handed to the resampler: bin key and value of each record. */
  function Observations(f: Freq, agg: string, hasValueCol: bool, records: seq<Record>): (rows: seq<Obs>)
    ensures |rows| == |records|
    ensures forall i :: 0 <= i < |records| ==> rows[i].key == BucketKey(f, records[i].date)
    ensures forall i :: 0 <= i < |records| ==> rows[i].value == RowValue(agg, hasValueCol, records[i])
  {
    seq(|records|, i requires 0 <= i < |records| =>
      Obs(BucketKey(f, records[i].date), RowValue(agg, hasValueCol, records[i])))
  }

  /** The bin keys of the records. */
  function RecordKeys(f: Freq, records: seq<Record>): (ks: seq<int>)
    ensures |ks| == |records|
  {
    seq(|records|, i requires 0 <= i < |records| => BucketKey(f, records[i].date))
  }

  /** The reducer `main` asks for: `sum()` for "sum" and for "count",
      `mean()` for "mean". */
  function ReducerFor(agg: string): (red: Reducer)
    ensures red == MeanOf <==> agg == "mean"
    ensures red != LastOf
  {
    if agg == "sum" then SumOf
    else if agg == "mean" then MeanOf
    else SumOf
  }

  /** Steps 2 and 3 of `main`: pick the value column or the column of ones,
      resample, drop NaN bins. Without a value column only counting is
      possible; the run stops otherwise. The series is in time order. */
  function ResampledSeries(f: Freq, agg: string, hasValueCol: bool, records: seq<Record>): (r: Result<seq<Bucket>, RunError>)
    ensures r.Err? <==> agg != "count" && !hasValueCol
    ensures r.Err? ==> r.error == ValueColumnRequired
    ensures r.Ok? ==> Ascending(r.value)
  {
    if !CountsRows(agg, hasValueCol) && !hasValueCol then Err(ValueColumnRequired)
    else
      var rows := Observations(f, agg, hasValueCol, records);
      AggregateAscending(ReducerFor(agg), rows);
      Ok(Aggregate(ReducerFor(agg), rows))
  }

  /** With a value column, "count" sums that column: it gives the same series
      as "sum". */
  lemma CountWithValueColumnIsSum(f: Freq, records: seq<Record>)
    ensures ResampledSeries(f, "count", true, records) == ResampledSeries(f, "sum", true, records)
  {
    assert Observations(f, "count", true, records) == Observations(f, "sum", true, records);
  }

  /** With a value column, each bucket holds the reduction (`sum()` or
      `mean()`, as `--agg` asks) of the coerced cells of the records in its
      bin. */
  lemma ValueColumnBuckets(f: Freq, agg: string, records: seq<Record>, b: Bucket)
    requires ResampledSeries(f, agg, true, records).Ok?
    requires b in ResampledSeries(f, agg, true, records).value
    ensures Reduce(ReducerFor(agg), ValuesIn(Observations(f, agg, true, records), b.key)) == Some(b.value)
  {
    AggregateValue(ReducerFor(agg), Observations(f, agg, true, records), b);
  }

  /** The observation keys are the record keys. */
  lemma ObservationKeys(f: Freq, agg: string, hasValueCol: bool, records: seq<Record>)
    ensures Keys(Observations(f, agg, hasValueCol, records)) == RecordKeys(f, records)
  {
  }

  /** In counting mode each bucket holds the number of records whose
      timestamp falls in its bin. */
  lemma CountModeCounts(f: Freq, records: seq<Record>, b: Bucket)
    requires ResampledSeries(f, "count", false, records).Ok?
    requires b in ResampledSeries(f, "count", false, records).value
    ensures b.value == multiset(RecordKeys(f, records))[b.key] as real
  {
    var rows := Observations(f, "count", false, records);
    AggregateValue(SumOf, rows, b);
    var vs := ValuesIn(rows, b.key);
    ValuesInFrom(rows, b.key, 1.0);
    assert forall i :: 0 <= i < |vs| ==> vs[i] == 1.0 by {
      forall i | 0 <= i < |vs| ensures vs[i] == 1.0 {
        assert vs[i] in vs;
      }
    }
    SumOfOnes(vs);
    BinSize(rows, b.key);
    ObservationKeys(f, "count", false, records);
  }

  /** In counting mode the buckets add up to the number of records. */
  lemma CountModeTotal(f: Freq, records: seq<Record>)
    requires ResampledSeries(f, "count", false, records).Ok?
    ensures Sum(BucketValues(ResampledSeries(f, "count", false, records).value)) == |records| as real
  {
    var rows := Observations(f, "count", false, records);
    SumConserved(rows);
    SumOfOnes(Values(rows));
  }

  /** Three rows of value 1 in bin 1 sum to one bucket holding 3. */
  lemma ThreeOnesInOneBin()
    ensures Aggregate(SumOf, [Obs(1, 1.0), Obs(1, 1.0), Obs(1, 1.0)]) == [Bucket(1, 3.0)]
  {
    var one := Obs(1, 1.0);
    var r1, r2, rows := [one], [one, one], [one, one, one];
    assert rows[..2] == r2 && r2[..1] == r1 && r1[..0] == [];
    assert MinKey(r1) == 1 && MaxKey(r1) == 1 && ValuesIn(r1, 1) == [1.0];
    assert MinKey(r2) == 1 && MaxKey(r2) == 1 && ValuesIn(r2, 1) == [1.0, 1.0];
    assert MinKey(rows) == 1 && MaxKey(rows) == 1;
    assert ValuesIn(rows, 1) == [1.0, 1.0, 1.0];
    assert Sum([1.0, 1.0, 1.0]) == 3.0;
    var slots := Resample(SumOf, rows);
    assert slots == [Slot(1, Some(3.0))];
    assert slots[1..] == [];
  }

  /** Three rows in the same week, counted without a value column, give one
      weekly bucket holding 3. */
  lemma WeeklyCountOfThree(d1: Date, d2: Date, d3: Date)
    requires d1.weekBin == 1 && d2.weekBin == 1 && d3.weekBin == 1
    ensures ResampledSeries(Week, "count", false, [Record(d1, None), Record(d2, None), Record(d3, None)])
         == Ok([Bucket(1, 3.0)])
  {
    var records := [Record(d1, None), Record(d2, None), Record(d3, None)];
    assert Observations(Week, "count", false, records) == [Obs(1, 1.0), Obs(1, 1.0), Obs(1, 1.0)];
    ThreeOnesInOneBin();
  }

  // ---------------------------------------------------------------------
  // Angles and radius (lines 92-96).

  /** The `theta` of `angle_and_labels`, as fractions of a turn: each angle
      is the calendar field's position `k - 1` in the cycle of `p` periods. */
  function Angles(f: Freq, dates: seq<Date>): (theta: seq<real>)
    ensures |theta| == |dates|
    ensures forall i :: 0 <= i < |dates| ==>
      0.0 <= theta[i] < 1.0 && theta[i] * (SeasonalPeriods(f) as real) == (CalendarIndex(f, dates[i]) - 1) as real
  {
    seq(|dates|, i requires 0 <= i < |dates| => Angle(f, dates[i]))
  }

  /** The radius of one value for the range `[lo, hi]`. */
  function Place(o: Option<real>, lo: real, hi: real): Option<real>
    requires lo <= hi
  {
    match o
    case None => None
    case Some(v) => Some(Unit(v, lo, hi) + 0.5)
  }

  /** The radii of all values for the range `[lo, hi]`. */
  function Places(vals: seq<Option<real>>, lo: real, hi: real): (r: seq<Option<real>>)
    requires lo <= hi
    ensures |r| == |vals|
    ensures forall i :: 0 <= i < |vals| ==> r[i] == Place(vals[i], lo, hi)
  {
    seq(|vals|, i requires 0 <= i < |vals| => Place(vals[i], lo, hi))
  }

  /** The radii of line 96: min-max normalised over the defined values, with
      a zero span read as 1, and lifted by 0.5 off the centre. NaN stays
      NaN; an empty series has no minimum and the run stops. */
  function Radius(vals: seq<Option<real>>): (r: Option<seq<Option<real>>>)
    ensures r.None? <==> |vals| == 0
    ensures r.Some? ==> |r.value| == |vals|
    ensures r.Some? ==> forall i :: 0 <= i < |vals| ==> (r.value[i].Some? <==> vals[i].Some?)
  {
    if |vals| == 0 then None
    else
      var d := Defined(vals);
      if |d| == 0 then Some(seq(|vals|, i requires 0 <= i < |vals| => None))
      else
        var lo, hi := Min(d), Max(d);
        assert lo <= hi by {
          assert hi in d;
        }
        Some(Places(vals, lo, hi))
  }

  /** The radius of a defined value: its position between the smallest and
      the largest defined value, plus 0.5. */
  lemma RadiusAt(vals: seq<Option<real>>, i: int)
    requires 0 <= i < |vals| && vals[i].Some?
    ensures |Defined(vals)| > 0
    ensures Min(Defined(vals)) <= vals[i].value <= Max(Defined(vals))
    ensures Radius(vals).Some?
    ensures Radius(vals).value[i].Some?
    ensures Radius(vals).value[i].value == Unit(vals[i].value, Min(Defined(vals)), Max(Defined(vals))) + 0.5
  {
    var d := Defined(vals);
    assert vals[i] in vals;
    assert vals[i].value in d;
    var lo, hi := Min(d), Max(d);
    var v := vals[i].value;
    assert vals[i] == Some(v);
    assert Place(Some(v), lo, hi) == Some(Unit(v, lo, hi) + 0.5);
    assert Radius(vals).value[i] == Place(vals[i], lo, hi);
    assert Radius(vals).value[i] == Some(Unit(v, lo, hi) + 0.5);
  }

  /** Every radius lies in `[0.5, 1.5]`. */
  lemma RadiusBounds(vals: seq<Option<real>>, i: int)
    requires 0 <= i < |vals| && vals[i].Some?
    ensures 0.5 <= Radius(vals).value[i].value <= 1.5
  {
    RadiusAt(vals, i);
  }

  /** The smallest defined value maps to 0.5, and the largest to 1.5 when
      they differ. */
  lemma RadiusEndpoints(vals: seq<Option<real>>, i: int)
    requires 0 <= i < |vals| && vals[i].Some?
    ensures vals[i].value == Min(Defined(vals)) <==> Radius(vals).value[i].value == 0.5
    ensures Min(Defined(vals)) < Max(Defined(vals)) ==>
      (vals[i].value == Max(Defined(vals)) <==> Radius(vals).value[i].value == 1.5)
  {
    RadiusAt(vals, i);
  }

  /** A series whose defined values are all equal maps them all to 0.5. */
  lemma RadiusConstant(vals: seq<Option<real>>, c: real)
    requires forall i :: 0 <= i < |vals| ==> vals[i] == None || vals[i] == Some(c)
    ensures Radius(vals).Some? ==>
      forall i :: 0 <= i < |vals| && vals[i].Some? ==> Radius(vals).value[i].value == 0.5
  {
    forall i | 0 <= i < |vals| && vals[i].Some?
      ensures Radius(vals).value[i].value == 0.5
    {
      RadiusAt(vals, i);
      var d := Defined(vals);
      assert Min(d) in d;
      assert Some(Min(d)) in vals;
    }
  }

  /** The radius keeps the order of the values. */
  lemma RadiusMonotone(vals: seq<Option<real>>, i: int, j: int)
    requires 0 <= i < |vals| && vals[i].Some?
    requires 0 <= j < |vals| && vals[j].Some?
    ensures vals[i].value <= vals[j].value <==> Radius(vals).value[i].value <= Radius(vals).value[j].value
  {
    RadiusAt(vals, i);
    RadiusAt(vals, j);
    UnitMonotone(vals[i].value, vals[j].value, Min(Defined(vals)), Max(Defined(vals)));
  }

  /** The whole of `main` between reading the CSV and plotting: resample,
      transform, then place each bucket at the angle of its label date and
      at its radius. `labelOf` gives the date that labels a bin, and `sd`
      the standard deviation that "zscore" divides by. */
  function Run(f: Freq, agg: string, hasValueCol: bool, transform: string, window: int, sd: real,
               records: seq<Record>, labelOf: int -> Date): (r: Result<seq<Point>, RunError>)
    requires transform == "zscore" && ResampledSeries(f, agg, hasValueCol, records).Ok? ==>
      IsStdDev(BucketValues(ResampledSeries(f, agg, hasValueCol, records).value), sd)
    ensures r.Err? <==> ResampledSeries(f, agg, hasValueCol, records).Err?
                        || |ResampledSeries(f, agg, hasValueCol, records).value| == 0
    ensures r.Ok? ==> |r.value| == |ResampledSeries(f, agg, hasValueCol, records).value|
    ensures r.Ok? ==> forall i :: 0 <= i < |r.value| && r.value[i].r.Some? ==> 0.5 <= r.value[i].r.value <= 1.5
    ensures r.Ok? ==> var buckets := ResampledSeries(f, agg, hasValueCol, records).value;
      var radii := Radius(ApplyTransform(BucketValues(buckets), f, transform, window, sd));
      radii.Some? && forall i :: 0 <= i < |r.value| ==>
        r.value[i].theta == Angle(f, labelOf(buckets[i].key)) && r.value[i].r == radii.value[i]
  {
    match ResampledSeries(f, agg, hasValueCol, records)
    case Err(e) => Err(e)
    case Ok(buckets) =>
      var vals := ApplyTransform(BucketValues(buckets), f, transform, window, sd);
      match Radius(vals)
      case None => Err(EmptySeries)
      case Some(radii) =>
        var theta := Angles(f, seq(|buckets|, i requires 0 <= i < |buckets| => labelOf(buckets[i].key)));
        assert forall i :: 0 <= i < |vals| && radii[i].Some? ==> 0.5 <= radii[i].value <= 1.5 by {
          forall i | 0 <= i < |vals| && radii[i].Some?
            ensures 0.5 <= radii[i].value <= 1.5
          {
            RadiusBounds(vals, i);
          }
        }
        var pts := seq(|buckets|, i requires 0 <= i < |buckets| => Point(theta[i], radii[i]));
        assert forall i :: 0 <= i < |pts| ==> pts[i].theta == Angle(f, labelOf(buckets[i].key)) && pts[i].r == radii[i];
        Ok(pts)
  }

  /** For months and quarters, a point's angle is the position of its bin in
      the cycle, whenever the label date lies in the bin: the spiral goes
      round once per year, bucket after bucket. */
  lemma RunAngles(f: Freq, agg: string, hasValueCol: bool, transform: string, window: int, sd: real,
                  records: seq<Record>, labelOf: int -> Date, i: int)
    requires f == Month || f == Quarter
    requires forall k :: BucketKey(f, labelOf(k)) == k
    requires transform == "zscore" && ResampledSeries(f, agg, hasValueCol, records).Ok? ==>
      IsStdDev(BucketValues(ResampledSeries(f, agg, hasValueCol, records).value), sd)
    requires Run(f, agg, hasValueCol, transform, window, sd, records, labelOf).Ok?
    requires 0 <= i < |Run(f, agg, hasValueCol, transform, window, sd, records, labelOf).value|
    ensures Run(f, agg, hasValueCol, transform, window, sd, records, labelOf).value[i].theta
         == BucketAngle(f, ResampledSeries(f, agg, hasValueCol, records).value[i].key)
  {
    var buckets := ResampledSeries(f, agg, hasValueCol, records).value;
    var k := buckets[i].key;
    BucketAngleOfDate(f, labelOf(k));
  }
}

=== FILE: stats.dfy ===
/** Whole-series statistics over exact reals: sums, means, population moments,
    NaN-skipping minimum and maximum, and the min-max position used by both
    radius normalisations. */
module Stats {
  import opened Common

  /** Sum of a series; 0 for the empty series (pandas sums an empty bin to 0). */
  function Sum(s: seq<real>): real
  {
    if |s| == 0 then 0.0 else s[0] + Sum(s[1..])
  }

  /** Arithmetic mean of a non-empty series. */
  function Mean(s: seq<real>): (m: real)
    requires |s| > 0
    ensures (|s| as real) * m == Sum(s)
  {
    DivCancel(Sum(s), |s| as real);
    Sum(s) / (|s| as real)
  }

  /** The square of a real. The ensures is a proof aid: it hands the solver
      the division fact that the variance lemmas need, which it does not find
      on its own for a product. */
  function Sq(x: real): (m: real)
    ensures x != 0.0 ==> m / x == x
  {
    x * x
  }

  /** A square is never negative. */
  lemma SqNonneg(x: real)
    ensures Sq(x) >= 0.0
  {
  }

  /** The square of a non-zero real is positive. */
  lemma SqPositive(x: real)
    requires x != 0.0
    ensures Sq(x) > 0.0
  {
    SqNonneg(x);
  }

  /** Squaring commutes with division. */
  lemma SqQuotient(a: real, b: real)
    requires b != 0.0
    ensures Sq(b) > 0.0
    ensures Sq(a / b) == Sq(a) / Sq(b)
  {
    var q := a / b;
    SqPositive(b);
    assert a == q * b;
    assert Sq(q) * Sq(b) == Sq(a);
  }

  /** Sum of squared deviations of `s` from `c`. */
  function SqDev(s: seq<real>, c: real): (d: real)
    ensures d >= 0.0
  {
    if |s| == 0 then 0.0
    else
      SqNonneg(s[0] - c);
      Sq(s[0] - c) + SqDev(s[1..], c)
  }

  /** Population variance (divisor N, as `std(ddof=0)` squares it); 0 for the empty series. */
  function PopVariance(s: seq<real>): (v: real)
    ensures v >= 0.0
  {
    if |s| == 0 then 0.0 else SqDev(s, Mean(s)) / (|s| as real)
  }

  /** `sd` is the population standard deviation of `s`: the square root that
      the model does not compute is supplied by the caller. */
  predicate IsStdDev(s: seq<real>, sd: real)
  {
    sd >= 0.0 && Sq(sd) == PopVariance(s)
  }

  /** Smallest element of a non-empty series. */
  function Min(s: seq<real>): (m: real)
    requires |s| > 0
    ensures m in s
    ensures forall i :: 0 <= i < |s| ==> m <= s[i]
  {
    if |s| == 1 then s[0]
    else
      var t := Min(s[1..]);
      if s[0] <= t then s[0] else t
  }

  /** Largest element of a non-empty series. */
  function Max(s: seq<real>): (m: real)
    requires |s| > 0
    ensures m in s
    ensures forall i :: 0 <= i < |s| ==> s[i] <= m
  {
    if |s| == 1 then s[0]
    else
      var t := Max(s[1..]);
      if s[0] >= t then s[0] else t
  }

  /** The defined entries of a series with NaNs, in order: what `np.nanmin`
      and `np.nanmax` look at. */
  function Defined(vals: seq<Option<real>>): (d: seq<real>)
    ensures |d| <= |vals|
    ensures forall x :: x in d <==> Some(x) in vals
  {
    if |vals| == 0 then []
    else
      match vals[0]
      case None => Defined(vals[1..])
      case Some(x) => [x] + Defined(vals[1..])
  }

  /** A series without NaNs, seen as a series that may hold them. */
  function Lift(s: seq<real>): (r: seq<Option<real>>)
    ensures |r| == |s|
    ensures forall i :: 0 <= i < |s| ==> r[i] == Some(s[i])
  {
    seq(|s|, i requires 0 <= i < |s| => Some(s[i]))
  }

  /** The divisor of a min-max normalisation: the span, or 1 when it is zero. */
  function Span(lo: real, hi: real): (d: real)
    ensures d != 0.0
    ensures lo < hi ==> d == hi - lo
    ensures lo == hi ==> d == 1.0
  {
    if hi - lo != 0.0 then hi - lo else 1.0
  }

  /** Position of `v` between `lo` and `hi`: `(v - lo) / span`. */
  function Unit(v: real, lo: real, hi: real): (u: real)
    requires lo <= hi
    ensures lo <= v <= hi ==> 0.0 <= u <= 1.0
    ensures v == lo <==> u == 0.0
    ensures lo < hi ==> (v == hi <==> u == 1.0)
  {
    (v - lo) / Span(lo, hi)
  }

  /** The value is recovered from its position and the range. */
  lemma UnitRoundTrip(v: real, lo: real, hi: real)
    requires lo <= hi
    ensures v == lo + Unit(v, lo, hi) * Span(lo, hi)
  {
    DivCancel(v - lo, Span(lo, hi));
  }

  /** A larger value never sits lower in the normalised range. */
  lemma UnitMonotone(a: real, b: real, lo: real, hi: real)
    requires lo <= hi
    ensures a <= b <==> Unit(a, lo, hi) <= Unit(b, lo, hi)
  {
    var d := Span(lo, hi);
    assert d > 0.0;
    assert Unit(b, lo, hi) - Unit(a, lo, hi) == (b - a) / d;
  }

  /** Every element between `lo` and `hi` bounds the sum by `n·lo` and `n·hi`. */
  lemma {:induction false} SumBounds(s: seq<real>, lo: real, hi: real)
    requires forall i :: 0 <= i < |s| ==> lo <= s[i] <= hi
    ensures (|s| as real) * lo <= Sum(s) <= (|s| as real) * hi
  {
    if |s| > 0 {
      SumBounds(s[1..], lo, hi);
    }
  }

  /** The mean lies between any bounds of the elements; a constant series has
      that constant as its mean. */
  lemma MeanWithin(s: seq<real>, lo: real, hi: real)
    requires |s| > 0
    requires forall i :: 0 <= i < |s| ==> lo <= s[i] <= hi
    ensures lo <= Mean(s) <= hi
  {
    SumBounds(s, lo, hi);
    var n := |s| as real;
    assert n * lo <= Sum(s) <= n * hi;
    assert Mean(s) * n == Sum(s);
  }

  /** A series of ones sums to its length: this is how "count" is computed. */
  lemma {:induction false} SumOfOnes(s: seq<real>)
    requires forall i :: 0 <= i < |s| ==> s[i] == 1.0
    ensures Sum(s) == |s| as real
  {
    if |s| > 0 {
      SumOfOnes(s[1..]);
    }
  }

  /** Sum distributes over `t[i] = (s[i] - c) / d`. */
  lemma {:induction false} SumAffine(s: seq<real>, t: seq<real>, c: real, d: real)
    requires d != 0.0
    requires |t| == |s|
    requires forall i :: 0 <= i < |s| ==> t[i] == (s[i] - c) / d
    ensures Sum(t) == (Sum(s) - (|s| as real) * c) / d
  {
    if |s| > 0 {
      SumAffine(s[1..], t[1..], c, d);
      assert Sum(t) == (s[0] - c) / d + (Sum(s[1..]) - ((|s| - 1) as real) * c) / d;
    }
  }

  /** Squared deviations scale by `1/d²` under `t[i] = (s[i] - c) / d`. */
  lemma {:induction false} SqDevAffine(s: seq<real>, t: seq<real>, c: real, d: real)
    requires d != 0.0
    requires |t| == |s|
    requires forall i :: 0 <= i < |s| ==> t[i] == (s[i] - c) / d
    ensures Sq(d) > 0.0
    ensures SqDev(t, 0.0) == SqDev(s, c) / Sq(d)
  {
    SqPositive(d);
    if |s| > 0 {
      SqDevAffine(s[1..], t[1..], c, d);
      SqQuotient(s[0] - c, d);
      assert t[0] - 0.0 == (s[0] - c) / d;
      DivAdd(Sq(s[0] - c), SqDev(s[1..], c), Sq(d));
    }
  }

  /** Multiplying by `b` undoes dividing by it, and conversely. */
  lemma DivCancel(a: real, b: real)
    requires b != 0.0
    ensures b * (a / b) == a
    ensures (a * b) / b == a
  {
  }

  /** Two divisions can be done in either order. */
  lemma DivSwap(a: real, k: real, n: real)
    requires k != 0.0 && n != 0.0
    ensures (a / k) / n == (a / n) / k
  {
    assert (a / k) / n == a / (k * n);
    assert (a / n) / k == a / (n * k);
  }

  /** The mean of one value is that value. */
  lemma MeanSingleton(x: real)
    ensures Mean([x]) == x
  {
    assert [x][1..] == [];
    assert Sum([x]) == x;
  }

  /** Fractions over one denominator add numerator-wise. */
  lemma DivAdd(a: real, b: real, k: real)
    requires k != 0.0
    ensures a / k + b / k == (a + b) / k
  {
  }

  /** Zero squared deviation from `c` means every element equals `c`. */
  lemma {:induction false} SqDevZero(s: seq<real>, c: real)
    requires SqDev(s, c) == 0.0
    ensures forall i :: 0 <= i < |s| ==> s[i] == c
  {
    if |s| > 0 {
      if s[0] != c {
        SqPositive(s[0] - c);
      }
      SqDevZero(s[1..], c);
      forall i | 0 <= i < |s| ensures s[i] == c {
        if i > 0 {
          assert s[i] == s[1..][i - 1];
        }
      }
    }
  }

  /** Lifting and then skipping NaNs gives the series back. */
  lemma {:induction false} DefinedLift(s: seq<real>)
    ensures Defined(Lift(s)) == s
  {
    if |s| > 0 {
      DefinedLift(s[1..]);
      assert Lift(s)[1..] == Lift(s[1..]);
    }
  }
}

=== FILE: transforms.dfy ===
/** `apply_transform` of `spiral.py`: five whole-series transforms of the
    bucketed values. NaN entries of the result are `None`. */
module Transforms {
  import opened Common
  import opened Stats
  import opened Calendar

  // ---------------------------------------------------------------------
  // index100: rebase to 100

  /** Each value as a percentage of the first; when the first value is 0 the
      divisor falls back to 1. */
  function Index100(s: seq<real>): (r: seq<real>)
    ensures |r| == |s|
    ensures |s| > 0 && s[0] != 0.0 ==> r[0] == 100.0
    ensures |s| > 0 && s[0] != 0.0 ==> forall i :: 0 <= i < |s| ==> r[i] == s[i] / s[0] * 100.0
    ensures |s| > 0 && s[0] == 0.0 ==> forall i :: 0 <= i < |s| ==> r[i] == s[i] * 100.0
  {
    var base := if |s| > 0 then s[0] else 1.0;
    var divisor := if base != 0.0 then base else 1.0;
    seq(|s|, i requires 0 <= i < |s| => s[i] / divisor * 100.0)
  }

  /** Rebasing an already rebased series changes nothing. */
  lemma Index100Idempotent(s: seq<real>)
    requires |s| > 0 && s[0] != 0.0
    ensures Index100(Index100(s)) == Index100(s)
  {
    var r := Index100(s);
    assert r[0] == 100.0;
    forall i | 0 <= i < |s|
      ensures Index100(r)[i] == r[i]
    {
      assert Index100(r)[i] == r[i] / 100.0 * 100.0;
    }
  }

  /** The rebased series does not depend on the unit of the input: scaling
      every value by a non-zero factor gives the same result. */
  lemma Index100ScaleFree(s: seq<real>, c: real)
    requires |s| > 0 && s[0] != 0.0 && c != 0.0
    ensures Index100(seq(|s|, i requires 0 <= i < |s| => c * s[i])) == Index100(s)
  {
    var t := seq(|s|, i requires 0 <= i < |s| => c * s[i]);
    assert t[0] == c * s[0];
    assert t[0] != 0.0;
    forall i | 0 <= i < |s|
      ensures Index100(t)[i] == Index100(s)[i]
    {
      assert (c * s[i]) / (c * s[0]) == s[i] / s[0];
    }
  }

  /** A constant non-zero series rebases to 100 everywhere. */
  lemma Index100Constant(s: seq<real>, v: real)
    requires v != 0.0
    requires forall i :: 0 <= i < |s| ==> s[i] == v
    ensures forall i :: 0 <= i < |s| ==> Index100(s)[i] == 100.0
  {
  }

  // ---------------------------------------------------------------------
  // yoy: percent change against the value `lag` positions earlier

  /** `(s[i] / s[i - lag] - 1) · 100`, undefined for the first `lag`
      positions and where the earlier value is 0 (the source yields inf or
      NaN there). The lag counts positions of the bucketed series, not
      calendar time. */
  function YoY(s: seq<real>, lag: nat): (r: seq<Option<real>>)
    ensures |r| == |s|
    ensures forall i :: 0 <= i < |s| ==> (r[i].Some? <==> lag <= i && s[i - lag] != 0.0)
  {
    seq(|s|, i requires 0 <= i < |s| =>
      if i < lag || s[i - lag] == 0.0 then None
      else Some((s[i] / s[i - lag] - 1.0) * 100.0))
  }

  /** A defined percent change `g` and the earlier value determine the later
      value, and conversely: `s[i] = s[i - lag] · (1 + g/100)`. */
  lemma YoYGrowth(s: seq<real>, lag: nat, i: int, g: real)
    requires lag <= i < |s| && s[i - lag] != 0.0
    ensures YoY(s, lag)[i] == Some(g) <==> s[i] == s[i - lag] * (1.0 + g / 100.0)
  {
    var a, b, x := s[i - lag], s[i], 1.0 + g / 100.0;
    assert YoY(s, lag)[i] == Some((b / a - 1.0) * 100.0);
    DivCancel(b, a);
    DivCancel(x, a);
    assert (b / a - 1.0) * 100.0 == g <==> b / a == x;
    if b == a * x {
      assert b == x * a;
      assert b / a == x;
    }
  }

  /** A series that repeats with period `lag` has zero growth wherever the
      percent change is defined. */
  lemma YoYPeriodic(s: seq<real>, lag: nat)
    requires forall i :: lag <= i < |s| ==> s[i] == s[i - lag]
    ensures forall i :: lag <= i < |s| && s[i - lag] != 0.0 ==> YoY(s, lag)[i] == Some(0.0)
  {
    forall i | lag <= i < |s| && s[i - lag] != 0.0
      ensures YoY(s, lag)[i] == Some(0.0)
    {
      DivCancel(1.0, s[i]);
      assert s[i] / s[i - lag] == 1.0;
    }
  }

  // ---------------------------------------------------------------------
  // zscore: population standardisation

  /** `(s[i] - mean) / sd` with the population standard deviation `sd`;
      when `sd` is 0 the divisor falls back to 1. */
  function ZScore(s: seq<real>, sd: real): (r: seq<real>)
    requires IsStdDev(s, sd)
    ensures |r| == |s|
  {
    if |s| == 0 then []
    else
      var mu := Mean(s);
      var divisor := if sd != 0.0 then sd else 1.0;
      seq(|s|, i requires 0 <= i < |s| => (s[i] - mu) / divisor)
  }

  /** Deviations from the mean, over any common divisor, sum to zero. */
  lemma CenteredSum(s: seq<real>, r: seq<real>, divisor: real)
    requires |s| > 0 && divisor != 0.0 && |r| == |s|
    requires forall i :: 0 <= i < |s| ==> r[i] == (s[i] - Mean(s)) / divisor
    ensures Sum(r) == 0.0
  {
    var mu, n := Mean(s), |s| as real;
    SumAffine(s, r, mu, divisor);
    DivCancel(Sum(s), n);
    assert n * mu == Sum(s);
  }

  /** Standardised values always sum to zero. */
  lemma ZScoreSumsToZero(s: seq<real>, sd: real)
    requires IsStdDev(s, sd)
    ensures Sum(ZScore(s, sd)) == 0.0
  {
    if |s| > 0 {
      var divisor := if sd != 0.0 then sd else 1.0;
      CenteredSum(s, ZScore(s, sd), divisor);
    }
  }

  /** With a non-zero standard deviation the standardised series has mean 0
      and population variance 1. */
  lemma ZScoreUnitVariance(s: seq<real>, sd: real)
    requires IsStdDev(s, sd) && sd != 0.0
    ensures |s| > 0
    ensures Mean(ZScore(s, sd)) == 0.0
    ensures PopVariance(ZScore(s, sd)) == 1.0
  {
    if |s| == 0 {
      SqPositive(sd);
      assert false;
    }
    var r := ZScore(s, sd);
    var n := |s| as real;
    ZScoreSumsToZero(s, sd);
    assert Mean(r) == 0.0;
    SqDevAffine(s, r, Mean(s), sd);
    assert PopVariance(s) == SqDev(s, Mean(s)) / n;
    assert SqDev(r, 0.0) == SqDev(s, Mean(s)) / Sq(sd);
    assert PopVariance(r) == SqDev(r, 0.0) / n;
    DivSwap(SqDev(s, Mean(s)), Sq(sd), n);
    assert PopVariance(r) == PopVariance(s) / Sq(sd);
    SqPositive(sd);
    DivCancel(1.0, Sq(sd));
    assert PopVariance(s) == Sq(sd);
  }

  /** With a zero standard deviation (a constant series) every standardised
      value is 0. */
  lemma ZScoreConstant(s: seq<real>, sd: real)
    requires IsStdDev(s, sd) && sd == 0.0
    ensures forall i :: 0 <= i < |s| ==> ZScore(s, sd)[i] == 0.0
  {
    if |s| > 0 {
      var n := |s| as real;
      assert Sq(sd) == 0.0;
      assert SqDev(s, Mean(s)) / n == 0.0;
      assert SqDev(s, Mean(s)) == 0.0;
      SqDevZero(s, Mean(s));
    }
  }

  // ---------------------------------------------------------------------
  // rolling: trailing mean whose window shrinks at the start

  /** Effective window `max(1, window)`. */
  function Width(window: int): (w: int)
    ensures w >= 1
    ensures window >= 1 ==> w == window
  {
    if window < 1 then 1 else window
  }

  /** First position of the trailing window ending at `i`; the window holds
      `min(i + 1, w)` values. */
  function WindowStart(i: int, window: int): (lo: int)
    requires i >= 0
    ensures 0 <= lo <= i
    ensures i + 1 - lo == if i + 1 < Width(window) then i + 1 else Width(window)
  {
    if i - Width(window) + 1 < 0 then 0 else i - Width(window) + 1
  }

  /** Mean of the last `max(1, window)` values up to each position, over
      fewer values near the start (`min_periods=1`). */
  function Rolling(s: seq<real>, window: int): (r: seq<real>)
    ensures |r| == |s|
  {
    seq(|s|, i requires 0 <= i < |s| => Mean(s[WindowStart(i, window)..i + 1]))
  }

  /** The first rolling mean is the first value. */
  lemma RollingFirst(s: seq<real>, window: int)
    requires |s| > 0
    ensures Rolling(s, window)[0] == s[0]
  {
    assert s[WindowStart(0, window)..1] == [s[0]];
    MeanSingleton(s[0]);
  }

  /** A window of at most one value leaves the series unchanged. */
  lemma RollingIdentity(s: seq<real>, window: int)
    requires window <= 1
    ensures Rolling(s, window) == s
  {
    forall i | 0 <= i < |s|
      ensures Rolling(s, window)[i] == s[i]
    {
      assert s[WindowStart(i, window)..i + 1] == [s[i]];
      MeanSingleton(s[i]);
    }
  }

  /** Each rolling mean lies between the smallest and the largest value of
      its window. */
  lemma RollingWithinWindow(s: seq<real>, window: int, i: int)
    requires 0 <= i < |s|
    ensures Min(s[WindowStart(i, window)..i + 1]) <= Rolling(s, window)[i]
    ensures Rolling(s, window)[i] <= Max(s[WindowStart(i, window)..i + 1])
  {
    var w := s[WindowStart(i, window)..i + 1];
    MeanWithin(w, Min(w), Max(w));
  }

  /** A constant series is its own rolling mean. */
  lemma RollingConstant(s: seq<real>, window: int, v: real)
    requires forall i :: 0 <= i < |s| ==> s[i] == v
    ensures Rolling(s, window) == s
  {
    forall i | 0 <= i < |s|
      ensures Rolling(s, window)[i] == s[i]
    {
      var w := s[WindowStart(i, window)..i + 1];
      assert forall j :: 0 <= j < |w| ==> w[j] == v;
      MeanWithin(w, v, v);
    }
  }

  // ---------------------------------------------------------------------
  // apply_transform

  /** Dispatch on the `--transform` token. "none" and any token not listed
      return the series as it is. `sd` is the population standard deviation
      of `s`, needed by "zscore" only. */
  function ApplyTransform(s: seq<real>, freq: Freq, transform: string, window: int, sd: real): (r: seq<Option<real>>)
    requires transform == "zscore" ==> IsStdDev(s, sd)
    ensures |r| == |s|
    ensures transform !in {"index100", "yoy", "zscore", "rolling"} ==> r == Lift(s)
    ensures transform == "index100" ==> r == Lift(Index100(s))
    ensures transform == "yoy" ==> r == YoY(s, SeasonalPeriods(freq))
    ensures transform == "zscore" ==> r == Lift(ZScore(s, sd))
    ensures transform == "rolling" ==> r == Lift(Rolling(s, window))
    ensures transform != "yoy" ==> forall i :: 0 <= i < |r| ==> r[i].Some?
  {
    if transform == "none" then Lift(s)
    else if transform == "index100" then Lift(Index100(s))
    else if transform == "yoy" then YoY(s, SeasonalPeriods(freq))
    else if transform == "zscore" then Lift(ZScore(s, sd))
    else if transform == "rolling" then Lift(Rolling(s, window))
    else Lift(s)
  }

  /** Year-over-year is undefined on exactly the first cycle of buckets and
      where the value one cycle earlier is 0; elsewhere it is the percent
      change against that value. */
  lemma ApplyYoY(s: seq<real>, freq: Freq, window: int, sd: real, i: int)
    requires 0 <= i < |s|
    ensures var r := ApplyTransform(s, freq, "yoy", window, sd);
            var p := SeasonalPeriods(freq);
            (i < p ==> r[i] == None)
            && (p <= i && s[i - p] != 0.0 ==> r[i] == Some((s[i] / s[i - p] - 1.0) * 100.0))
  {
  }
}
